=== FILE: README.md ===
# rcli core, modelled in Dafny

`rcli` is a command-line toolbox. This project models the decision logic of its
commands, which surrounds the cryptographic, encoding and password features:

- **`text sign` / `text verify` / `text generate`.**
  - Loading BLAKE3 and Ed25519 keys from file contents, with their length rules.
  - Dispatch between the two signers.
  - Wrapping signatures in unpadded URL-safe base64.
  - Generating key blobs and writing them to their files.
- **`genpass`.** The pool of enabled character classes, one seed character per
  class, filling up to the requested length, and the in-place shuffle.
- **`base64 encode` / `base64 decode`.**
  - The format dispatch and the whitespace trim.
  - A complete RFC 4648 encoder and decoder. The alphabet is from section 4
    (standard) or section 5 (URL-safe); padding is optional, per section 3.2. The
    decoder is canonical, as the base64 crate's general-purpose engines are.
- **The option enumerations** of `text`, `csv` and `base64`, with their parsers,
  names and defaults.
- **`jwt`.**
  - The `--exp` parser.
  - The expiry arithmetic.
  - The claims builder: audience splitting and truncation to whole seconds.
  - The NumericDate (Unix seconds) conversion of RFC 7519 section 2.
  - The verify step's outcome.

Modules follow the source files:

| module | file |
|---|---|
| `Text` | `src/process/text.rs` |
| `GenPass` | `src/process/gen_pass.rs` |
| `B64` | `src/process/b64.rs` |
| `CliTextFormat`, `CliTextGenerate` | `src/cli/text.rs` |
| `CliJwt` | `src/cli/jwt.rs` |
| `Jwt` | `src/process/jwt.rs` |
| `CliCsv` | `src/cli/csv.rs` |
| `CliBase64` | `src/cli/base64.rs` |

`src/cli/text.rs` is split over two modules because its `execute` calls into
`Text`, which itself imports the enumerations. Supporting modules:

- `Common`: bytes, `i64`, and the outcome type.
- `Strings`: Rust's `str::trim`, `split` and `parse::<i64>`.
- `Base64`: the codec the base64 crate implements.

Every outcome is `Ok`, `Err` (an `anyhow` error) or `Panic` (an `unwrap`, an `expect`,
an out-of-range slice or index, or arithmetic overflow in a debug build). The model
keeps the three apart.

Conventions:

- **Cryptographic primitives** are the fields of a `Text.Primitives` value.
  `Text.Sound` states the only two facts the proofs use about them: a derived
  public key is a valid point, and it accepts what its secret key signed.
- **Randomness** (`thread_rng`, `OsRng`) is nondeterministic choice, so the
  properties hold for every random outcome.
- **Time** is a whole number of nanoseconds since the Unix epoch, in UTC. The current
  time is a parameter.

Some of the source's behaviour is surprising but intended-looking, and the model
states it rather than correcting it:

- The base64 `urlsafe` format uses the standard alphabet (`+`, `/`) without
  padding. It is the `standard` format minus its `=`.
- A BLAKE3 key shorter than 32 bytes panics instead of returning an error.
- `jwt verify` never answers `false`.
- `jwt sign` uses `--secret` as given, while `jwt verify` trims it.

## Model

| member | source | states |
|---|---|---|
| Common.AsciiRoundTrip | src/process/gen_pass.rs:63 | ASCII bytes and one-character-per-byte strings convert into each other losslessly, in both orders (`String::from_utf8` on an ASCII password, `as_bytes` on it) |
| Strings.Trim | src/process/b64.rs:27 | the result has no whitespace at either end and is no longer than the input; it is empty exactly when the input is all whitespace |
| Strings.TrimStart | src/process/b64.rs:27 | the result is a suffix of the input, everything removed is whitespace, and the result does not start with whitespace |
| Strings.TrimEnd | src/process/b64.rs:27 | the result is a prefix of the input, everything removed is whitespace, and the result does not end with whitespace |
| Strings.TrimSlice | src/process/b64.rs:27 | `trim` keeps one contiguous slice of its input, removes only whitespace, and leaves no whitespace at either end |
| Strings.TrimWrapped | src/process/b64.rs:27 | trimming text that has no whitespace at its ends, after wrapping it in any whitespace, gives back exactly that text |
| Strings.TrimAbsorbs | src/process/jwt.rs:50 | extra whitespace around any string does not change its trimmed form |
| Strings.TrimFixed | src/process/jwt.rs:51 | trimming leaves a string unchanged exactly when neither end is whitespace |
| Strings.Split | src/process/jwt.rs:92-93 | `split(',')` gives one piece more than there are commas, and no piece contains a comma |
| Strings.SplitJoin | src/process/jwt.rs:92-93 | no piece of `split(',')` contains the separator, and joining the pieces with it restores the input |
| Strings.JoinSplit | src/process/jwt.rs:92-93 | splitting a join of separator-free pieces gives back exactly those pieces |
| Strings.ParseI64 | src/cli/jwt.rs:77 | a text parses only if it is digits after an optional leading sign with at least one digit; a run of digits, signed or not, parses to its decimal value exactly when that value is within the `i64` range, and is rejected otherwise |
| Strings.ParseShowInt | src/cli/jwt.rs:77 | `parse::<i64>()` reads back every `i64` written in decimal, negative ones included |
| Strings.ParseI64Rejects | src/cli/jwt.rs:77 | `parse::<i64>()` fails on any character that is neither a digit nor a leading sign |
| Base64.Encode | src/process/b64.rs:14-17 | the output length is ⌈4n/3⌉ unpadded and 4⌈n/3⌉ padded; every character is an alphabet symbol, or `=` for a padding engine |
| Base64.Rfc4648Vectors | src/process/b64.rs:14-17 | the standard engine encodes the RFC 4648 section 10 vectors `f` … `foobar` as `Zg==` … `Zm9vYmFy`, and the unpadded one encodes `fo` as `Zm8` |
| Base64.RoundTrip | src/process/b64.rs:14-17 | decoding the encoding of any bytes returns them, for every engine |
| Base64.Decode | src/process/b64.rs:29-32 | decoding never panics, it returns bytes or a `DecodeError`; a padded engine rejects a text whose length is not a multiple of 4 as invalid padding |
| Base64.Canonical | src/process/b64.rs:29-32 | the decoder accepts a text only when it is exactly the encoding of the bytes it returns |
| Base64.DecodeIffEncode | src/process/b64.rs:29-32 | decoding gives `b` if and only if encoding `b` gives the text |
| Base64.ForeignSymbolRejected | src/process/b64.rs:29-32 | a character outside the alphabet fails decoding, unless it is `=` and the engine pads |
| Base64.PaddingOnlyDifference | src/process/b64.rs:15-16 | the padded encoding is the unpadded one followed by its `=` padding |
| Base64.AlphabetsDiffer | src/process/text.rs:59 | the URL-safe encoding is the standard encoding with `+` and `/` replaced by `-` and `_` |
| B64.ProcessEncode | src/process/b64.rs:8-19 | the output decodes back to the input; `standard` output has a length divisible by 4, and `urlsafe` output has no `=` |
| B64.ProcessDecode | src/process/b64.rs:21-35 | decoding never panics, and what it returns re-encodes to exactly the trimmed input |
| B64.ProcessRoundTrip | src/process/b64.rs:24-32 | decoding an encoding returns the original bytes, even with whitespace around it (a trailing newline) |
| B64.DecodeOnlyCanonical | src/process/b64.rs:29-32 | the `standard` format rejects trimmed input whose length is not a multiple of 4; `urlsafe` rejects any `=` |
| B64.ForeignCharacterRejected | src/process/b64.rs:29-32 | a character outside the standard alphabet and not `=` inside the trimmed input makes decoding fail |
| B64.FormatsDifferOnlyInPadding | src/process/b64.rs:15-16 | the two formats write the same symbols; `standard` adds at most two `=` |
| B64.UrlSafeFormatKeepsStandardAlphabet | src/process/b64.rs:16 | the `urlsafe` format encodes FB FF as `+/8`, where the URL-safe alphabet would give `-_8` |
| B64.EncodedIsTrimmed | src/process/b64.rs:27 | an encoding never starts or ends with whitespace |
| CliBase64.FormatFromStr | src/cli/base64.rs:63-73 | parsing succeeds only with the variant's own name; any other text is an `Invalid format` error |
| CliBase64.FormatNames | src/cli/base64.rs:63-88 | a text parses to a format exactly when it is that format's name; the `Display` text parses back too |
| CliBase64.DefaultFormats | src/cli/base64.rs:40 | `encode` and `decode` both default to `standard` |
| CliCsv.FormatFromStr | src/cli/csv.rs:85-96 | parsing succeeds only with a format's name; the error carries the rejected text |
| CliCsv.FormatNames | src/cli/csv.rs:63-102 | a text parses to a format exactly when it is that format's name; the `Display` text parses back too |
| CliCsv.OutputPath | src/cli/csv.rs:42-46 | the given output is kept; otherwise the path is `output.` followed by text that parses back to the format |
| CliCsv.DefaultFormat | src/cli/csv.rs:28 | the default format is JSON, so the default output is `output.json` |
| CliTextFormat.SignFormatFromStr | src/cli/text.rs:123-133 | parsing succeeds only with `blake3` or `ed25519`, case-sensitively; anything else is an error |
| CliTextFormat.CryptFormatFromStr | src/cli/text.rs:112-121 | parsing succeeds only with `chacha20poly1305` |
| CliTextFormat.SignFormatNames | src/cli/text.rs:123-150 | a text parses to a sign format exactly when it is that variant's `&str` name |
| CliTextFormat.CryptFormatNames | src/cli/text.rs:112-142 | a text parses to the crypt format exactly when it is its `&str` name |
| CliTextFormat.Defaults | src/cli/text.rs:35-86 | the sign and crypt defaults name real variants; the default nonce is twelve `0` characters |
| CliTextGenerate.KeyFiles | src/cli/text.rs:183-192 | BLAKE3 needs one blob and Ed25519 two; fewer panics on the index; otherwise the files are exactly `blake3.txt`, or `ed25519.sk` then `ed25519.pk`, each holding the blob at its index |
| CliTextGenerate.Execute | src/cli/text.rs:180-195 | as written: for `blake3` it panics in the generator before any file is written; for `ed25519` it writes `ed25519.sk` then `ed25519.pk`, each accepted by the loader that reads it back |
| CliTextGenerate.ExecuteCorrected | src/cli/text.rs:180-195 | with the corrected BLAKE3 generator: generating never fails; the files are `blake3.txt`, or `ed25519.sk` then `ed25519.pk`; each is accepted by the loader that reads it back |
| CliTextGenerate.GeneratedPairVerifies | src/cli/text.rs:188-189 | text signed with the generated `.sk` file verifies with the generated `.pk` file |
| GenPass.UpperTable | src/process/gen_pass.rs:3 | the upper-case table spells `A` to `Z` |
| GenPass.LowerTable | src/process/gen_pass.rs:4 | the lower-case table spells `a` to `z` |
| GenPass.NumberAndSymbolTables | src/process/gen_pass.rs:5-6 | the digit table is `1234567890` and the symbol table is `!@#$%^&*~,.;` |
| GenPass.ClassOfMembers | src/process/gen_pass.rs:3-6 | the four classes are disjoint: a byte is in a class exactly when it is that class's byte |
| GenPass.PoolMembers | src/process/gen_pass.rs:19-50 | the pool holds exactly the bytes of the enabled classes |
| GenPass.EmptyPool | src/process/gen_pass.rs:19-50 | the pool is empty exactly when every class is excluded |
| GenPass.ValidPasswordClasses | src/process/gen_pass.rs:55-58 | a generated password holds no byte of a disabled class, and only ASCII bytes |
| GenPass.PermutationKeepsValid | src/process/gen_pass.rs:61 | reordering a valid password keeps its length, its pool membership and its class coverage |
| GenPass.Shuffle | src/process/gen_pass.rs:61 | the in-place shuffle permutes the array: the multiset of bytes is unchanged |
| GenPass.SeedClass | src/process/gen_pass.rs:19-26 | one `if !no_*` block appends its class to the pool and pushes one byte of that class, keeping earlier coverage |
| GenPass.Seed | src/process/gen_pass.rs:19-50 | after the four blocks the pool is exactly the enabled classes, and the password has one byte per enabled class, covering each |
| GenPass.Fill | src/process/gen_pass.rs:52-59 | drawing from an empty pool panics at the first draw; otherwise every drawn byte is from the pool and coverage is kept |
| GenPass.ProcessGenPass | src/process/gen_pass.rs:8-70 | panics on `u8` underflow exactly when `length` is below the number of enabled classes; panics on an empty pool exactly when every class is excluded and `length > 0`; otherwise returns an ASCII password of exactly `length` characters, all from enabled classes, covering every enabled class |
| Text.Blake3TryNew | src/process/text.rs:172-177 | a key shorter than 32 bytes panics at the slice; a longer one is cut to its first 32 bytes |
| Text.Blake3KeyTailIgnored | src/process/text.rs:173 | bytes after the first 32 of a BLAKE3 key file make no difference |
| Text.Ed25519SignerTryNew | src/process/text.rs:184-187 | the secret key loads exactly when it is 32 bytes; otherwise the error is a length error |
| Text.Ed25519VerifierTryNew | src/process/text.rs:194-197 | the public key loads exactly when it is 32 bytes and a valid point; the two failures are distinct errors |
| Text.Blake3Sign | src/process/text.rs:92-98 | a BLAKE3 signature is the 32-byte keyed hash of the whole input under the loaded key; `Blake3SignVerify` shows that `Blake3Verify` accepts it |
| Text.Blake3Verify | src/process/text.rs:101-108 | verification never fails, and is `true` exactly when the signature equals the recomputed hash |
| Text.Ed25519Sign | src/process/text.rs:110-116 | an Ed25519 signature is the primitive's 64-byte signature of the whole input, which verifies under the signer's public key (`Ed25519SignVerify`) |
| Text.Ed25519Verify | src/process/text.rs:119-126 | a signature not exactly 64 bytes is an error; otherwise the result is the primitive's verdict |
| Text.Blake3SignVerify | src/process/text.rs:92-108 | a BLAKE3 signature verifies with the same key |
| Text.Blake3WrongLength | src/process/text.rs:101-107 | a BLAKE3 signature of the wrong length is `false`, not an error |
| Text.Ed25519SignVerify | src/process/text.rs:110-126 | an Ed25519 signature verifies under the public key of its secret key |
| Text.ProcessTextSign | src/process/text.rs:46-62 | BLAKE3 signing succeeds exactly when the key has at least 32 bytes and panics at the slice otherwise; Ed25519 succeeds exactly when the key has 32 bytes and is a length error otherwise; the output is unpadded URL-safe base64 that decodes to the keyed hash under the first 32 key bytes, or to the Ed25519 signature |
| Text.ProcessTextVerify | src/process/text.rs:64-83 | a signature that is not valid unpadded URL-safe base64 yields the decoder's error; otherwise BLAKE3 panics on a key under 32 bytes and else answers whether `text sign` with that key prints exactly this signature; Ed25519 gives the key-length, invalid-point or signature-length error in that order, and else the primitive's verdict on the decoded bytes |
| Text.Blake3TextRoundTrip | src/process/text.rs:46-83 | `text sign` then `text verify` with the same BLAKE3 key file gives `true` |
| Text.Ed25519TextRoundTrip | src/process/text.rs:46-83 | `text sign` with an Ed25519 secret key file then `text verify` with its public key file gives `true` |
| Text.MalformedSignatureFirst | src/process/text.rs:70-79 | a signature holding a character outside the URL-safe alphabet is an error whatever the key, even a BLAKE3 key that would panic when loaded |
| Text.CrossFormatSignatures | src/process/text.rs:101-126 | an Ed25519 signature given to the BLAKE3 verifier is `false`; a BLAKE3 signature given to the Ed25519 verifier is a length error |
| Text.Blake3GenerateAsWritten | src/process/text.rs:149-155 | BLAKE3 key generation as written always panics on the empty pool |
| Text.Blake3Generate | src/process/text.rs:149-155 | with the classes enabled, BLAKE3 key generation yields one 32-byte blob that the BLAKE3 loader accepts |
| Text.Ed25519Generate | src/process/text.rs:157-165 | Ed25519 key generation yields the secret key and then its public key; both load |
| Text.ProcessGenerateKey | src/process/text.rs:85-90 | as written: BLAKE3 panics on the empty pool; Ed25519 gives a loadable secret key and its public key |
| Text.ProcessGenerateKeyCorrected | src/process/text.rs:85-90 | with the corrected BLAKE3 generator: one blob for BLAKE3 and two for Ed25519, each accepted by its loader |
| CliJwt.TimeUnitFromStr | src/cli/jwt.rs:81-92 | parsing succeeds only with the unit's own letter; anything else is an `Invalid format TimeUnit` error |
| CliJwt.TimeUnitNames | src/cli/jwt.rs:81-102 | a text parses to a unit exactly when it is that unit's letter |
| CliJwt.ParseExpTime | src/cli/jwt.rs:68-79 | parsing succeeds exactly when the last character is a unit letter; an empty text is an error; the unit read is that letter, and the number is `parse::<i64>()` of everything before it, or 14 when that fails |
| CliJwt.ParseExpTimeRoundTrip | src/cli/jwt.rs:68-79 | any `i64` written in decimal followed by a unit letter parses back to that number and unit |
| CliJwt.NonCanonicalNumbers | src/cli/jwt.rs:76-77 | a leading `+` and leading zeros are accepted: `+5D` is five days and `007D` seven |
| CliJwt.ParseExpTimeFallback | src/cli/jwt.rs:76-77 | a number part that is not an `i64` becomes 14 |
| CliJwt.DefaultExp | src/cli/jwt.rs:36 | the default `14D` is fourteen days, and a bare `M` is fourteen months |
| CliJwt.UnitCase | src/cli/jwt.rs:86-88 | `M` is a month and `m` a minute; `d` is no unit |
| Jwt.ExpiryDuration | src/process/jwt.rs:23-27 | the duration is the number times 30 days, 1 day or 1 minute, in seconds; it panics exactly when that leaves `i64` |
| Jwt.Days | src/process/jwt.rs:25 | `Duration::days` succeeds exactly when the seconds fit an `i64`, and panics otherwise |
| Jwt.AddSeconds | src/process/jwt.rs:24-26 | adding a duration succeeds exactly when the sum is representable, and then moves the time by exactly that many seconds; otherwise it panics |
| Jwt.Expiry | src/process/jwt.rs:23-27 | `exp` exists exactly when the duration fits an `i64` and `iat` plus it is representable, and is then `iat` plus the requested number of units; otherwise it panics |
| Jwt.TruncateToSecond | src/process/jwt.rs:79-88 | the result is a whole second, at or before the time and less than a second before it |
| Jwt.Audience | src/process/jwt.rs:92-96 | the audiences are exactly the comma-separated pieces, each trimmed; none contains a comma or has whitespace at its ends |
| Jwt.ClaimsNew | src/process/jwt.rs:70-106 | the audience is always present; `iat` and `exp` are truncated to whole seconds; `sub` and the input are kept |
| Jwt.AudienceOfList | src/process/jwt.rs:92-96 | for comma-free names, the audience of their comma-joined list is exactly the set of the names with surrounding whitespace removed |
| Jwt.EmptyAudience | src/process/jwt.rs:92-96 | an empty `--aud` is the set holding the empty name |
| Jwt.RepeatedAudience | src/process/jwt.rs:92-96 | a comma-free name is one trimmed audience, and repeating it changes nothing |
| Jwt.Serialize | src/process/jwt.rs:113-119 | the Unix seconds are the whole seconds at or before the time, and lie within the representable range |
| Jwt.Deserialize | src/process/jwt.rs:122-128 | deserialising succeeds exactly for seconds in the representable range, and serialises back to them |
| Jwt.NumericDateRoundTrip | src/process/jwt.rs:112-128 | a whole-second time survives serialising and deserialising |
| Jwt.ProcessJwtSign | src/process/jwt.rs:9-37 | signing builds claims exactly when the expiry is computable; otherwise it panics |
| Jwt.ExpiryOffset | src/process/jwt.rs:23-29 | in the serialised claims, `exp - iat` is exactly the requested number of units in seconds |
| Jwt.ProcessJwtVerify | src/process/jwt.rs:39-57 | the result is never `false`: `true` when the decoder accepts the trimmed token, otherwise an error |
| Jwt.VerifyIgnoresWhitespace | src/process/jwt.rs:50 | whitespace around the token does not change the verdict |
| Jwt.SecretsAgree | src/process/jwt.rs:34-51 | signing and verifying use the same secret exactly when it has no whitespace at its ends |

## Left out

- **Reading and writing** are not modelled. This covers `get_reader`, `read_to_end` and `read_to_string`, `fs::read` of key files, `fs::write` of generated keys, `println!`, and the `NotFound`/I-O errors they raise. The operations take the bytes or text that were read.
- CliTextGenerate.Execute, CliTextGenerate.ExecuteCorrected: joining the file names to `--output` is not modelled; the files are described by name alone.
- CliTextGenerate.KeyFiles: given a single blob for Ed25519, the source writes `ed25519.sk` before `key[1]` panics; the model reports only the panic. The Ed25519 generator always yields two blobs, so `execute` never reaches that case.
- **The cryptographic primitives** are not modelled: the BLAKE3 keyed hash, Ed25519 signing, verification, key derivation and point decoding. Only the two facts in `Text.Sound` and the widths of their results are assumed. Collision resistance and unforgeability are not stated.
- **Encryption** (`process_encrypt`, `process_decrypt`) has no body in `src/process/text.rs`. Only its format enumeration and option defaults are modelled.
- **The `Display` impls of `TextSignFormat` and `TextCryptFormat`** (`src/cli/text.rs:152-162`) convert `self` to its own type and format it again, so they recurse without end. They are not modelled; the `From<_> for &str` impls are the real names.
- **Random generators** (`thread_rng`, `OsRng`) are nondeterministic choice. No distribution is claimed.
- **Release builds** are not modelled: the model follows debug builds, which panic on integer overflow. In a release build, `length - password.len() as u8` in `src/process/gen_pass.rs:52` wraps around, and so does `exp.number * 30` in `src/process/jwt.rs:24`.
- Base64.Decode: when a text has several faults, which `DecodeError` is reported first is not claimed to match the base64 crate. Only success, failure and the decoded bytes are stated.
- **`jsonwebtoken::encode` and `decode`** are not modelled: the HS256 signature, header handling, and `exp` validation. Signing stops at the claims and the secret; verification takes the decoder as a parameter.
- **Time zones.** Only UTC times are modelled, since `now_utc` gives one. The `time` crate's optional `large-dates` range is not modelled.
- **Strings** are sequences of Unicode scalar values, not UTF-8 bytes. The one byte-length expression that matters is `t.len() - 1` in `src/cli/jwt.rs:76`. It is reached only after the last character is an ASCII unit letter, so dropping one character is exact there.
- **The HTTP server, the CSV conversion, the password-strength estimate and the wiring** are not part of this model. These are `src/process/http_serve.rs`, `src/process.rs`, `zxcvbn`, and `main.rs`, `lib.rs`, the `mod.rs` files and `verify_file`/`verify_path`.

## Findings

| source | as written | input that shows it | evidently intended | confidence | as-written member | corrected member |
|---|---|---|---|---|---|---|
| src/process/text.rs:151 | BLAKE3 key generation calls `process_genpass(32, true, true, true, true)`. That excludes all four character classes, so the pool is empty and the first draw's `expect` panics. | `text generate --format blake3` | a 32-character key drawn from enabled classes, i.e. `no_*` flags `false` | not executed | Text.Blake3GenerateAsWritten | Text.Blake3Generate |
| src/process/text.rs:87 | `process_generate_key` hands `blake3` to the generator above, so it panics too. | `text generate --format blake3` | one loadable BLAKE3 key blob | not executed | Text.ProcessGenerateKey | Text.ProcessGenerateKeyCorrected |
| src/cli/text.rs:183 | `execute` calls `process_generate_key`, so `text generate` with its default format `blake3` panics before writing `blake3.txt`. | `text generate` | `blake3.txt` written with a key `text sign` accepts | not executed | CliTextGenerate.Execute | CliTextGenerate.ExecuteCorrected |

=== FILE: b64.dfy ===
/**
 * `src/process/b64.rs`: the `base64 encode` and `base64 decode` commands after
 * their input has been read. Encoding takes the raw bytes; decoding takes the
 * text, trims surrounding whitespace, and decodes it.
 *
 * The format called `urlsafe` selects the crate's `STANDARD_NO_PAD` engine: the
 * standard alphabet (`+` and `/`) without padding, not the URL-safe alphabet of
 * RFC 4648 section 5. The two formats therefore write the same symbols and differ
 * only in the trailing `=`.
 */
module B64 {
  import opened Common
  import opened Strings
  import opened CliBase64
  import Base64

  /** The engine each format selects. */
  function EngineFor(format: Base64Format): Base64.Engine {
    match format
    case Standard => Base64.STANDARD
    case UrlSafe => Base64.STANDARD_NO_PAD
  }

  /** `process_encode` once the input bytes are read. */
  function ProcessEncode(input: seq<byte>, format: Base64Format): (r: string)
    ensures Base64.Decode(EngineFor(format), r) == Ok(input)
    ensures format == Standard ==> |r| % 4 == 0
    ensures format == UrlSafe ==> Base64.PAD !in r
  {
    Base64.RoundTrip(EngineFor(format), input);
    Base64.PadNotInAlphabet(Base64.Standard);
    Base64.Encode(EngineFor(format), input)
  }

  /** `process_decode` once the input text is read: trim, then decode. */
  function ProcessDecode(input: string, format: Base64Format): (r: Result<seq<byte>>)
    ensures r.Ok? || r.Err?
    ensures r.Ok? ==> ProcessEncode(r.value, format) == Trim(input)
  {
    var r := Base64.Decode(EngineFor(format), Trim(input));
    if r.Ok? then Base64.Canonical(EngineFor(format), Trim(input), r.value); r else r
  }

  /** Encoded text never starts or ends with whitespace. */
  lemma EncodedIsTrimmed(b: seq<byte>, format: Base64Format)
    ensures Trimmed(ProcessEncode(b, format))
  {
    var s := ProcessEncode(b, format);
    assert forall i :: 0 <= i < |s| ==> !IsWhitespace(s[i]);
  }

  /** Decoding gives back what was encoded, even with whitespace around it (a file or
      standard input that ends in a newline). */
  lemma ProcessRoundTrip(b: seq<byte>, format: Base64Format, lead: string, trail: string)
    requires AllWhitespace(lead) && AllWhitespace(trail)
    ensures ProcessDecode(lead + ProcessEncode(b, format) + trail, format) == Ok(b)
  {
    EncodedIsTrimmed(b, format);
    TrimWrapped(lead, ProcessEncode(b, format), trail);
  }

  /** Decoding accepts the trimmed input only when it is exactly the encoding of the
      result; in particular the `standard` format rejects text that lacks its padding
      and the `urlsafe` format rejects any `=`. */
  lemma DecodeOnlyCanonical(input: string, format: Base64Format)
    ensures ProcessDecode(input, format).Ok? ==>
              ProcessEncode(ProcessDecode(input, format).value, format) == Trim(input)
    ensures format == Standard && |Trim(input)| % 4 != 0 ==> ProcessDecode(input, format).Err?
    ensures format == UrlSafe && Base64.PAD in Trim(input) ==> ProcessDecode(input, format).Err?
  {
  }

  /** A character inside the trimmed input that is neither a standard-alphabet symbol
      nor `=` makes decoding fail, for both formats. */
  lemma ForeignCharacterRejected(input: string, format: Base64Format, i: nat)
    requires i < |Trim(input)|
    requires !Base64.InAlphabet(Base64.Standard, Trim(input)[i]) && Trim(input)[i] != Base64.PAD
    ensures ProcessDecode(input, format).Err?
  {
    Base64.ForeignSymbolRejected(EngineFor(format), Trim(input), i);
  }

  /** The two formats write the same symbols; `standard` adds at most two `=`. */
  lemma FormatsDifferOnlyInPadding(b: seq<byte>)
    ensures ProcessEncode(b, Standard) == ProcessEncode(b, UrlSafe) + Base64.Padding(|ProcessEncode(b, UrlSafe)|)
    ensures |ProcessEncode(b, Standard)| - |ProcessEncode(b, UrlSafe)| <= 2
  {
    Base64.PaddingOnlyDifference(Base64.Standard, b);
  }

  /** The `urlsafe` format is not URL-safe: the bytes FB FF encode to `+/8`, where the
      URL-safe alphabet of RFC 4648 section 5 would give `-_8`. */
  lemma UrlSafeFormatKeepsStandardAlphabet()
    ensures ProcessEncode([0xFB, 0xFF], UrlSafe) == "+/8"
    ensures Base64.Encode(Base64.URL_SAFE_NO_PAD, [0xFB, 0xFF]) == "-_8"
  {
    var b: seq<byte> := [0xFB, 0xFF];
    assert Base64.Sextets(b) == [62, 63, 60];
  }
}

=== FILE: base64.dfy ===
/**
 * The base64 codec of RFC 4648 as the `base64` crate's general-purpose engines
 * implement it: the standard alphabet (RFC 4648 section 4) or the URL- and
 * filename-safe alphabet (section 5), with or without `=` padding (section 3.2).
 *
 * Decoding is canonical, as the crate's default engine configuration is: a
 * padded engine requires exactly the padding its encoder writes, an unpadded
 * engine accepts none, and a final symbol whose unused low bits are not zero is
 * rejected (RFC 4648 section 3.5). That makes decoding the exact inverse of
 * encoding: `Decode(e, s) == Ok(b)` holds if and only if `Encode(e, b) == s`.
 */
module Base64 {
  import opened Common

  datatype Alphabet = Standard | UrlSafe

  datatype Engine = Engine(alphabet: Alphabet, pad: bool)

  /** `general_purpose::STANDARD`: section 4 alphabet, padded. */
  const STANDARD: Engine := Engine(Standard, true)
  /** `general_purpose::STANDARD_NO_PAD`: section 4 alphabet, no padding. */
  const STANDARD_NO_PAD: Engine := Engine(Standard, false)
  /** `general_purpose::URL_SAFE_NO_PAD`: section 5 alphabet, no padding. */
  const URL_SAFE_NO_PAD: Engine := Engine(UrlSafe, false)

  const PAD: char := '='

  type Sextet = v: int | 0 <= v < 64

  /** The character that encodes the 6-bit value `v`; decoding it gives `v` back. */
  function Symbol(a: Alphabet, v: Sextet): (c: char)
    ensures SymbolValue(a, c) == Some(v)
  {
    if v < 26 then ('A' as int + v) as char
    else if v < 52 then ('a' as int + (v - 26)) as char
    else if v < 62 then ('0' as int + (v - 52)) as char
    else if v == 62 then (if a == Standard then '+' else '-')
    else (if a == Standard then '/' else '_')
  }

  /** The 6-bit value a character encodes, or `None` when it is not in the alphabet. */
  function SymbolValue(a: Alphabet, c: char): Option<Sextet> {
    if 'A' <= c <= 'Z' then Some(c as int - 'A' as int)
    else if 'a' <= c <= 'z' then Some(c as int - 'a' as int + 26)
    else if '0' <= c <= '9' then Some(c as int - '0' as int + 52)
    else if c == (if a == Standard then '+' else '-') then Some(62)
    else if c == (if a == Standard then '/' else '_') then Some(63)
    else None
  }

  predicate InAlphabet(a: Alphabet, c: char) {
    SymbolValue(a, c).Some?
  }

  /** Each alphabet character is the symbol of the value it decodes to, so the 64
      symbols and the 64 values are in one-to-one correspondence; `=` is not one of them. */
  lemma SymbolOfValue(a: Alphabet, c: char)
    requires InAlphabet(a, c)
    ensures Symbol(a, SymbolValue(a, c).value) == c
  {
  }

  lemma PadNotInAlphabet(a: Alphabet)
    ensures !InAlphabet(a, PAD)
  {
  }

  /** The symbols for a sequence of 6-bit values. */
  function Symbols(a: Alphabet, v: seq<Sextet>): (r: string)
    ensures |r| == |v|
    ensures forall i :: 0 <= i < |r| ==> InAlphabet(a, r[i])
  {
    seq(|v|, i requires 0 <= i < |v| => Symbol(a, v[i]))
  }

  /** The 6-bit values of a string of alphabet symbols. */
  function Values(a: Alphabet, s: string): (v: seq<Sextet>)
    requires forall i :: 0 <= i < |s| ==> InAlphabet(a, s[i])
    ensures |v| == |s|
  {
    seq(|s|, i requires 0 <= i < |s| => ValueOf(a, s[i]))
  }

  function ValueOf(a: Alphabet, c: char): Sextet
    requires InAlphabet(a, c)
  {
    SymbolValue(a, c).value
  }

  lemma ValuesSymbols(a: Alphabet, v: seq<Sextet>)
    ensures Values(a, Symbols(a, v)) == v
  {
  }

  lemma SymbolsValues(a: Alphabet, s: string)
    requires forall i :: 0 <= i < |s| ==> InAlphabet(a, s[i])
    ensures Symbols(a, Values(a, s)) == s
  {
    forall i | 0 <= i < |s| ensures Symbols(a, Values(a, s))[i] == s[i] {
      SymbolOfValue(a, s[i]);
    }
  }

  // ---------------------------------------------------------------------------
  // The bit arithmetic of one 24-bit group

  /** Splits a group of 1 to 3 bytes into 2 to 4 six-bit values, the last one
      filled up with zero bits. */
  function Sextets(g: seq<byte>): (v: seq<Sextet>)
    requires 1 <= |g| <= 3
    ensures |v| == |g| + 1
  {
    var b0 := g[0] as int;
    var b1 := if |g| >= 2 then g[1] as int else 0;
    var b2 := if |g| == 3 then g[2] as int else 0;
    SplitBits(b0, b1, b2);
    var full: seq<Sextet> := [b0 / 4, (b0 % 4) * 16 + b1 / 16, (b1 % 16) * 4 + b2 / 64, b2 % 64];
    full[..|g| + 1]
  }

  /** A short final group leaves the bits that carry no byte at zero. */
  predicate SpareBitsClear(v: seq<Sextet>) {
    (|v| == 2 ==> v[1] % 16 == 0) && (|v| == 3 ==> v[2] % 4 == 0)
  }

  /** Joins 2 to 4 six-bit values into 1 to 3 bytes, dropping the spare bits. */
  function Octets(v: seq<Sextet>): (g: seq<byte>)
    requires 2 <= |v| <= 4
    ensures |g| == |v| - 1
  {
    var c0, c1 := v[0] as int, v[1] as int;
    var c2 := if |v| >= 3 then v[2] as int else 0;
    var c3 := if |v| == 4 then v[3] as int else 0;
    JoinBits(c0, c1, c2, c3);
    var full: seq<byte> := [(c0 * 4 + c1 / 16) as byte, ((c1 % 16) * 16 + c2 / 4) as byte,
                            ((c2 % 4) * 64 + c3) as byte];
    full[..|v| - 1]
  }

  lemma OctetsSextets(g: seq<byte>)
    requires 1 <= |g| <= 3
    ensures SpareBitsClear(Sextets(g)) && Octets(Sextets(g)) == g
  {
    var b0 := g[0] as int;
    var b1 := if |g| >= 2 then g[1] as int else 0;
    var b2 := if |g| == 3 then g[2] as int else 0;
    SplitBits(b0, b1, b2);
  }

  lemma SextetsOctets(v: seq<Sextet>)
    requires 2 <= |v| <= 4 && SpareBitsClear(v)
    ensures Sextets(Octets(v)) == v
  {
    var c0, c1 := v[0] as int, v[1] as int;
    var c2 := if |v| >= 3 then v[2] as int else 0;
    var c3 := if |v| == 4 then v[3] as int else 0;
    JoinBits(c0, c1, c2, c3);
  }

  /** Splitting three bytes into four 6-bit values loses nothing. */
  lemma SplitBits(b0: int, b1: int, b2: int)
    requires 0 <= b0 < 256 && 0 <= b1 < 256 && 0 <= b2 < 256
    ensures 0 <= b0 / 4 < 64 && 0 <= (b0 % 4) * 16 + b1 / 16 < 64
    ensures 0 <= (b1 % 16) * 4 + b2 / 64 < 64 && 0 <= b2 % 64 < 64
    ensures (b0 / 4) * 4 + ((b0 % 4) * 16 + b1 / 16) / 16 == b0
    ensures (((b0 % 4) * 16 + b1 / 16) % 16) * 16 + ((b1 % 16) * 4 + b2 / 64) / 4 == b1
    ensures (((b1 % 16) * 4 + b2 / 64) % 4) * 64 + b2 % 64 == b2
    ensures b1 == 0 ==> ((b0 % 4) * 16 + b1 / 16) % 16 == 0
    ensures b2 == 0 ==> ((b1 % 16) * 4 + b2 / 64) % 4 == 0
  {
    var x := (b0 % 4) * 16 + b1 / 16;
    assert x / 16 == b0 % 4 && x % 16 == b1 / 16;
    var y := (b1 % 16) * 4 + b2 / 64;
    assert y / 4 == b1 % 16 && y % 4 == b2 / 64;
  }

  /** Joining four 6-bit values into three bytes loses nothing. */
  lemma JoinBits(c0: int, c1: int, c2: int, c3: int)
    requires 0 <= c0 < 64 && 0 <= c1 < 64 && 0 <= c2 < 64 && 0 <= c3 < 64
    ensures 0 <= c0 * 4 + c1 / 16 < 256 && 0 <= (c1 % 16) * 16 + c2 / 4 < 256
    ensures 0 <= (c2 % 4) * 64 + c3 < 256
    ensures (c0 * 4 + c1 / 16) / 4 == c0
    ensures ((c0 * 4 + c1 / 16) % 4) * 16 + ((c1 % 16) * 16 + c2 / 4) / 16 == c1
    ensures (((c1 % 16) * 16 + c2 / 4) % 16) * 4 + ((c2 % 4) * 64 + c3) / 64 == c2
    ensures ((c2 % 4) * 64 + c3) % 64 == c3
    ensures c1 % 16 == 0 && c2 == 0 ==> ((c0 * 4 + c1 / 16) % 4) * 16 + 0 / 16 == c1
    ensures c2 % 4 == 0 && c3 == 0 ==> (((c1 % 16) * 16 + c2 / 4) % 16) * 4 + 0 / 64 == c2
  {
    var x := c0 * 4 + c1 / 16;
    assert x / 4 == c0 && x % 4 == c1 / 16;
    var y := (c1 % 16) * 16 + c2 / 4;
    assert y / 16 == c1 % 16 && y % 16 == c2 / 4;
    var z := (c2 % 4) * 64 + c3;
    assert z / 64 == c2 % 4 && z % 64 == c3;
  }

  // ---------------------------------------------------------------------------
  // Encoding

  /** Encodes one group of 1 to 3 bytes into 2 to 4 symbols (RFC 4648 section 4:
      24-bit groups, 6 bits per symbol, zero bits appended to a short final group). */
  function EncodeGroup(a: Alphabet, g: seq<byte>): (r: string)
    requires 1 <= |g| <= 3
    ensures |r| == |g| + 1
    ensures forall i :: 0 <= i < |r| ==> InAlphabet(a, r[i])
  {
    Symbols(a, Sextets(g))
  }

  /** The symbols for `b`, without padding: ceil(4n/3) of them, all in the alphabet. */
  function EncodeUnpadded(a: Alphabet, b: seq<byte>): (r: string)
    ensures |r| == (4 * |b| + 2) / 3
    ensures forall i :: 0 <= i < |r| ==> InAlphabet(a, r[i])
  {
    if b == [] then []
    else if |b| <= 3 then EncodeGroup(a, b)
    else EncodeGroup(a, b[..3]) + EncodeUnpadded(a, b[3..])
  }

  /** The `=` characters that bring `n` symbols up to a multiple of four. */
  function Padding(n: nat): string {
    seq((4 - n % 4) % 4, _ => PAD)
  }

  /** `Engine::encode`: only alphabet symbols, then `=` padding when the engine pads. */
  function Encode(e: Engine, b: seq<byte>): (r: string)
    ensures !e.pad ==> |r| == (4 * |b| + 2) / 3
    ensures e.pad ==> |r| == 4 * ((|b| + 2) / 3)
    ensures forall i :: 0 <= i < |r| ==> InAlphabet(e.alphabet, r[i]) || (e.pad && r[i] == PAD)
  {
    var s := EncodeUnpadded(e.alphabet, b);
    UnpaddedLength(|b|);
    if e.pad then s + Padding(|s|) else s
  }

  // ---------------------------------------------------------------------------
  // Decoding

  /** The first character of `s` outside the alphabet, if any. */
  function FirstForeign(a: Alphabet, s: string): (r: Option<char>)
    ensures r.None? <==> forall i :: 0 <= i < |s| ==> InAlphabet(a, s[i])
  {
    if s == [] then None
    else if !InAlphabet(a, s[0]) then Some(s[0])
    else FirstForeign(a, s[1..])
  }

  /** Decodes one group of 2 to 4 symbols into 1 to 3 bytes. A short final group
      must leave its spare bits at zero. */
  function DecodeGroup(a: Alphabet, g: string): (r: Result<seq<byte>>)
    requires 2 <= |g| <= 4
    ensures r.Ok? ==> |r.value| == |g| - 1
    ensures r.Ok? || r.Err?
  {
    match FirstForeign(a, g)
    case Some(c) => Err(Base64(InvalidByte(c)))
    case None =>
      var v := Values(a, g);
      if !SpareBitsClear(v) then Err(Base64(InvalidLastSymbol)) else Ok(Octets(v))
  }

  /** Decodes symbols with no padding, four at a time. */
  function DecodeUnpadded(a: Alphabet, s: string): (r: Result<seq<byte>>)
    ensures r.Ok? || r.Err?
    decreases |s|
  {
    if s == [] then Ok([])
    else if |s| == 1 then Err(Base64(InvalidLength))
    else if |s| <= 4 then DecodeGroup(a, s)
    else
      match DecodeGroup(a, s[..4])
      case Ok(head) =>
        (match DecodeUnpadded(a, s[4..])
         case Ok(tail) => Ok(head + tail)
         case Err(e) => Err(e)
         case Panic(k) => Panic(k))
      case Err(e) => Err(e)
      case Panic(k) => Panic(k)
  }

  /** How many `=` end `s`, counting at most two. */
  function PadCount(s: string): (k: nat)
    ensures k <= 2 && k <= |s|
  {
    if |s| >= 2 && s[|s| - 1] == PAD && s[|s| - 2] == PAD then 2
    else if |s| >= 1 && s[|s| - 1] == PAD then 1
    else 0
  }

  /** `Engine::decode`. A padded engine needs a multiple of four characters and
      strips the final `=`; an unpadded engine treats `=` like any foreign character. */
  function Decode(e: Engine, s: string): (r: Result<seq<byte>>)
    ensures r.Ok? || r.Err?
    ensures e.pad && |s| % 4 != 0 ==> r == Err(Base64(InvalidPadding))
  {
    if !e.pad then DecodeUnpadded(e.alphabet, s)
    else if |s| % 4 != 0 then Err(Base64(InvalidPadding))
    else DecodeUnpadded(e.alphabet, s[..|s| - PadCount(s)])
  }

  // ---------------------------------------------------------------------------
  // Decoding inverts encoding, and accepts nothing else.

  lemma GroupRoundTrip(a: Alphabet, g: seq<byte>)
    requires 1 <= |g| <= 3
    ensures DecodeGroup(a, EncodeGroup(a, g)) == Ok(g)
  {
    ValuesSymbols(a, Sextets(g));
    OctetsSextets(g);
  }

  lemma GroupCanonical(a: Alphabet, s: string, g: seq<byte>)
    requires 2 <= |s| <= 4 && DecodeGroup(a, s) == Ok(g)
    ensures EncodeGroup(a, g) == s
  {
    SextetsOctets(Values(a, s));
    SymbolsValues(a, s);
  }

  /** Unpadded decoding returns what was encoded. */
  lemma {:induction false} UnpaddedRoundTrip(a: Alphabet, b: seq<byte>)
    ensures DecodeUnpadded(a, EncodeUnpadded(a, b)) == Ok(b)
  {
    if b == [] {
    } else if |b| <= 3 {
      GroupRoundTrip(a, b);
    } else {
      var s := EncodeUnpadded(a, b);
      GroupRoundTrip(a, b[..3]);
      UnpaddedRoundTrip(a, b[3..]);
      assert s[..4] == EncodeGroup(a, b[..3]);
      assert s[4..] == EncodeUnpadded(a, b[3..]);
      assert b[..3] + b[3..] == b;
    }
  }

  /** Unpadded decoding succeeds only on the encoder's own output. */
  lemma {:induction false} UnpaddedCanonical(a: Alphabet, s: string, b: seq<byte>)
    requires DecodeUnpadded(a, s) == Ok(b)
    ensures EncodeUnpadded(a, b) == s
  {
    if s == [] {
    } else if |s| <= 4 {
      GroupCanonical(a, s, b);
    } else {
      var head := DecodeGroup(a, s[..4]).value;
      var tail := DecodeUnpadded(a, s[4..]).value;
      GroupCanonical(a, s[..4], head);
      UnpaddedCanonical(a, s[4..], tail);
      assert b == head + tail;
      assert b[..3] == head && b[3..] == tail;
      assert s == s[..4] + s[4..];
    }
  }

  /** RFC 4648 round trip: decoding with an engine returns whatever the same engine encoded. */
  lemma RoundTrip(e: Engine, b: seq<byte>)
    ensures Decode(e, Encode(e, b)) == Ok(b)
  {
    var s := EncodeUnpadded(e.alphabet, b);
    UnpaddedRoundTrip(e.alphabet, b);
    if e.pad {
      UnpaddedLength(|b|);
      StripPadding(e.alphabet, s);
    }
  }

  /** Decoding text with a padded engine is unpadded decoding of the text before its
      padding. */
  lemma StripPadding(a: Alphabet, s: string)
    requires |s| % 4 != 1
    requires forall i :: 0 <= i < |s| ==> InAlphabet(a, s[i])
    ensures Decode(Engine(a, true), s + Padding(|s|)) == DecodeUnpadded(a, s)
  {
    var t := s + Padding(|s|);
    PadCountOfPadded(a, s);
    assert |t| % 4 == 0;
    assert t[..|t| - PadCount(t)] == s;
  }

  /** Decoding is canonical: whatever it accepts is exactly the encoding of its result. */
  lemma Canonical(e: Engine, s: string, b: seq<byte>)
    requires Decode(e, s) == Ok(b)
    ensures Encode(e, b) == s
  {
    if !e.pad {
      UnpaddedCanonical(e.alphabet, s, b);
    } else {
      var body := s[..|s| - PadCount(s)];
      UnpaddedCanonical(e.alphabet, body, b);
      PaddedSplit(s);
    }
  }

  /** A text whose length is a multiple of four is its body followed by exactly the
      padding that body calls for. */
  lemma PaddedSplit(s: string)
    requires |s| % 4 == 0
    ensures s == s[..|s| - PadCount(s)] + Padding(|s| - PadCount(s))
  {
    var k := PadCount(s);
    var tail := s[|s| - k..];
    assert forall i :: 0 <= i < k ==> tail[i] == PAD;
    assert Padding(|s| - k) == tail;
    assert s == s[..|s| - k] + tail;
  }

  /** The two directions together: `s` decodes to `b` exactly when `b` encodes to `s`. */
  lemma DecodeIffEncode(e: Engine, s: string, b: seq<byte>)
    ensures Decode(e, s) == Ok(b) <==> Encode(e, b) == s
  {
    if Decode(e, s) == Ok(b) { Canonical(e, s, b); }
    if Encode(e, b) == s { RoundTrip(e, b); }
  }

  /** ceil(4n/3) symbols never leave a remainder of one modulo four, and padding them
      gives 4 * ceil(n/3) characters. */
  lemma UnpaddedLength(n: nat)
    ensures (4 * n + 2) / 3 % 4 != 1
    ensures (4 * n + 2) / 3 + (4 - (4 * n + 2) / 3 % 4) % 4 == 4 * ((n + 2) / 3)
  {
    var q, r := n / 3, n % 3;
    assert n == 3 * q + r;
    assert 4 * n + 2 == 3 * (4 * q) + (4 * r + 2);
    assert (4 * n + 2) / 3 == 4 * q + (4 * r + 2) / 3;
    assert (n + 2) / 3 == q + (r + 2) / 3;
  }

  lemma PadCountOfPadded(a: Alphabet, s: string)
    requires |s| % 4 != 1
    requires forall i :: 0 <= i < |s| ==> InAlphabet(a, s[i])
    ensures PadCount(s + Padding(|s|)) == |Padding(|s|)|
  {
    PadNotInAlphabet(a);
    var t := s + Padding(|s|);
    if |s| % 4 == 0 && |s| > 0 {
      assert t[|t| - 1] == s[|s| - 1];
    } else if |s| % 4 == 3 {
      assert t[|t| - 2] == s[|s| - 1];
    }
  }

  /** A character outside the alphabet makes decoding fail wherever it stands, unless
      it is `=` and the engine pads. */
  lemma ForeignSymbolRejected(e: Engine, s: string, i: nat)
    requires i < |s| && !InAlphabet(e.alphabet, s[i]) && (s[i] != PAD || !e.pad)
    ensures Decode(e, s).Err?
  {
    var r := Decode(e, s);
    if r.Ok? {
      Canonical(e, s, r.value);
    }
  }

  /** The padded and unpadded engines over one alphabet write the same symbols; they
      differ only in the trailing `=`. */
  lemma PaddingOnlyDifference(a: Alphabet, b: seq<byte>)
    ensures Encode(Engine(a, true), b) == Encode(Engine(a, false), b) + Padding((4 * |b| + 2) / 3)
    ensures |Padding((4 * |b| + 2) / 3)| <= 2
  {
  }

  /** The two alphabets differ only in the symbols for 62 and 63 (RFC 4648 sections 4
      and 5): the URL-safe encoding is the standard one with `+` and `/` replaced by
      `-` and `_`. */
  lemma {:induction false} AlphabetsDiffer(b: seq<byte>)
    ensures |EncodeUnpadded(UrlSafe, b)| == |EncodeUnpadded(Standard, b)|
    ensures forall i :: 0 <= i < |EncodeUnpadded(Standard, b)| ==>
      EncodeUnpadded(UrlSafe, b)[i] == ToUrlSafe(EncodeUnpadded(Standard, b)[i])
  {
    if b != [] && |b| > 3 {
      AlphabetsDiffer(b[3..]);
    }
  }

  function ToUrlSafe(c: char): char {
    if c == '+' then '-' else if c == '/' then '_' else c
  }

  /** The test vectors of section 10 of RFC 4648 for the standard alphabet, padded
      and unpadded: they fix the bit order of the encoding. */
  lemma Rfc4648Vectors()
    ensures Encode(STANDARD, [0x66]) == "Zg=="
    ensures Encode(STANDARD, [0x66, 0x6F]) == "Zm8="
    ensures Encode(STANDARD, [0x66, 0x6F, 0x6F]) == "Zm9v"
    ensures Encode(STANDARD, [0x66, 0x6F, 0x6F, 0x62]) == "Zm9vYg=="
    ensures Encode(STANDARD, [0x66, 0x6F, 0x6F, 0x62, 0x61]) == "Zm9vYmE="
    ensures Encode(STANDARD, [0x66, 0x6F, 0x6F, 0x62, 0x61, 0x72]) == "Zm9vYmFy"
    ensures Encode(STANDARD_NO_PAD, [0x66, 0x6F]) == "Zm8"
  {
    assert Sextets([0x66]) == [25, 32];
    assert Sextets([0x66, 0x6F]) == [25, 38, 60];
    assert Sextets([0x66, 0x6F, 0x6F]) == [25, 38, 61, 47];
    assert Sextets([0x62]) == [24, 32];
    assert Sextets([0x62, 0x61]) == [24, 38, 4];
    assert Sextets([0x62, 0x61, 0x72]) == [24, 38, 5, 50];
  }
}

=== FILE: cli_formats.dfy ===
/**
 * The closed option sets of the command line: each is an enumeration with a
 * parser (`FromStr`), a name (`From<_> for &str`), and where the source has one,
 * a `Display` that prints the name. Parsing is exact and case-sensitive, and
 * parsing the name of a variant gives that variant back.
 */

/** `src/cli/base64.rs`: the format of `base64 encode` / `base64 decode`. */
module CliBase64 {
  import opened Common

  datatype Base64Format = Standard | UrlSafe

  /** `Base64Format::from_str`. */
  function FormatFromStr(s: string): (r: Result<Base64Format>)
    ensures r.Ok? ==> FormatAsStr(r.value) == s
    ensures !r.Ok? ==> r == Err(InvalidFormat)
  {
    if s == "standard" then Ok(Standard)
    else if s == "urlsafe" then Ok(UrlSafe)
    else Err(InvalidFormat)
  }

  /** `From<Base64Format> for &str`. */
  function FormatAsStr(f: Base64Format): string {
    match f
    case Standard => "standard"
    case UrlSafe => "urlsafe"
  }

  /** `Display for Base64Format` writes the `&str` name. */
  function FormatDisplay(f: Base64Format): string {
    FormatAsStr(f)
  }

  /** Clap's `default_value` of `--format` for both `encode` and `decode`. */
  const DEFAULT_ENCODE_FORMAT: string := "standard"
  const DEFAULT_DECODE_FORMAT: string := "standard"

  /** A string parses to a format exactly when it is that format's name, and the
      displayed form is that name too. */
  lemma FormatNames(s: string, f: Base64Format)
    ensures FormatFromStr(s) == Ok(f) <==> s == FormatAsStr(f)
    ensures FormatFromStr(FormatDisplay(f)) == Ok(f)
  {
  }

  lemma DefaultFormats()
    ensures FormatFromStr(DEFAULT_ENCODE_FORMAT) == Ok(Standard)
    ensures FormatFromStr(DEFAULT_DECODE_FORMAT) == Ok(Standard)
  {
  }
}

/** `src/cli/csv.rs`: the output format of `csv` and its default output file. */
module CliCsv {
  import opened Common

  datatype OutputFormat = Json | Yaml | Toml

  /** `OutputFormat::from_str`; the error names the rejected text. */
  function FormatFromStr(s: string): (r: Result<OutputFormat>)
    ensures r.Ok? ==> FormatAsStr(r.value) == s
    ensures !r.Ok? ==> r == Err(UnsupportedFormat(s))
  {
    if s == "json" then Ok(Json)
    else if s == "yaml" then Ok(Yaml)
    else if s == "toml" then Ok(Toml)
    else Err(UnsupportedFormat(s))
  }

  /** `From<OutputFormat> for &str`. */
  function FormatAsStr(f: OutputFormat): string {
    match f
    case Json => "json"
    case Yaml => "yaml"
    case Toml => "toml"
  }

  /** `Display for OutputFormat` writes the `&str` name. */
  function FormatDisplay(f: OutputFormat): string {
    FormatAsStr(f)
  }

  /** Clap's `default_value` of `--format`. */
  const DEFAULT_FORMAT: string := "json"

  const DEFAULT_OUTPUT_STEM: string := "output."

  /** The output path `CsvOpts::execute` hands on: the one given, or else
      `output.` followed by the format's name. */
  function OutputPath(output: Option<string>, format: OutputFormat): (path: string)
    ensures output.Some? ==> path == output.value
    ensures output.None? ==>
              && |path| > |DEFAULT_OUTPUT_STEM|
              && path[..|DEFAULT_OUTPUT_STEM|] == DEFAULT_OUTPUT_STEM
              && FormatFromStr(path[|DEFAULT_OUTPUT_STEM|..]) == Ok(format)
  {
    match output
    case Some(o) => o
    case None => DEFAULT_OUTPUT_STEM + FormatDisplay(format)
  }

  lemma FormatNames(s: string, f: OutputFormat)
    ensures FormatFromStr(s) == Ok(f) <==> s == FormatAsStr(f)
    ensures FormatFromStr(FormatDisplay(f)) == Ok(f)
  {
  }

  lemma DefaultFormat()
    ensures FormatFromStr(DEFAULT_FORMAT) == Ok(Json)
    ensures OutputPath(None, Json) == "output.json"
  {
  }
}

/** The enumerations of `src/cli/text.rs` and the defaults of its options. */
module CliTextFormat {
  import opened Common

  datatype TextSignFormat = Blake3 | Ed25519

  datatype TextCryptFormat = Chacha20poly1305

  /** `TextSignFormat::from_str`. */
  function SignFormatFromStr(s: string): (r: Result<TextSignFormat>)
    ensures r.Ok? ==> SignFormatAsStr(r.value) == s
    ensures !r.Ok? ==> r == Err(InvalidFormat)
  {
    if s == "blake3" then Ok(Blake3)
    else if s == "ed25519" then Ok(Ed25519)
    else Err(InvalidFormat)
  }

  /** `From<TextSignFormat> for &str`. */
  function SignFormatAsStr(f: TextSignFormat): string {
    match f
    case Blake3 => "blake3"
    case Ed25519 => "ed25519"
  }

  /** `TextCryptFormat::from_str`. */
  function CryptFormatFromStr(s: string): (r: Result<TextCryptFormat>)
    ensures r.Ok? ==> CryptFormatAsStr(r.value) == s
    ensures !r.Ok? ==> r == Err(InvalidFormat)
  {
    if s == "chacha20poly1305" then Ok(Chacha20poly1305) else Err(InvalidFormat)
  }

  /** `From<TextCryptFormat> for &str`. */
  function CryptFormatAsStr(f: TextCryptFormat): string {
    match f
    case Chacha20poly1305 => "chacha20poly1305"
  }

  /** Clap defaults: `--format` of sign, verify and generate; `--format` and
      `--nonce` of encrypt and decrypt. */
  const DEFAULT_SIGN_FORMAT: string := "blake3"
  const DEFAULT_CRYPT_FORMAT: string := "chacha20poly1305"
  const DEFAULT_NONCE: string := "000000000000"

  lemma SignFormatNames(s: string, f: TextSignFormat)
    ensures SignFormatFromStr(s) == Ok(f) <==> s == SignFormatAsStr(f)
  {
  }

  lemma CryptFormatNames(s: string, f: TextCryptFormat)
    ensures CryptFormatFromStr(s) == Ok(f) <==> s == CryptFormatAsStr(f)
  {
  }

  /** The defaults name real variants, and the default nonce is twelve `0`
      characters (the 12-byte ChaCha20-Poly1305 nonce width). */
  lemma Defaults()
    ensures SignFormatFromStr(DEFAULT_SIGN_FORMAT) == Ok(Blake3)
    ensures CryptFormatFromStr(DEFAULT_CRYPT_FORMAT) == Ok(Chacha20poly1305)
    ensures |DEFAULT_NONCE| == 12 && forall i :: 0 <= i < 12 ==> DEFAULT_NONCE[i] == '0'
  {
  }
}

=== FILE: cli_jwt.dfy ===
/**
 * `src/cli/jwt.rs`: the `--exp` option of `jwt sign`. Its text is a decimal number
 * followed by one unit letter; `M` is months, `D` days and `m` minutes.
 */
module CliJwt {
  import opened Common
  import opened Strings

  datatype TimeUnit = Month | Day | Minute

  /** `TimeUnit::from_str`: exactly `M`, `D` or `m`. */
  function TimeUnitFromStr(s: string): (r: Result<TimeUnit>)
    ensures r.Ok? ==> TimeUnitAsStr(r.value) == s
    ensures !r.Ok? ==> r == Err(InvalidTimeUnit)
  {
    if s == "M" then Ok(Month)
    else if s == "D" then Ok(Day)
    else if s == "m" then Ok(Minute)
    else Err(InvalidTimeUnit)
  }

  /** `From<TimeUnit> for &str`. */
  function TimeUnitAsStr(u: TimeUnit): string {
    match u
    case Month => "M"
    case Day => "D"
    case Minute => "m"
  }

  datatype ExpObj = ExpObj(number: i64, unit: TimeUnit)

  /** Clap's `default_value` of `--exp`, and the number used when the digits do not
      parse. */
  const DEFAULT_EXP: string := "14D"
  const DEFAULT_NUMBER: i64 := 14

  /** `parse_exp_time`. The unit is the last character (a space when the text is
      empty, which is no unit). The number is everything before it, or 14 when that
      is not an `i64`. The unit letters are ASCII, so dropping one byte there
      (`t.len() - 1`) drops exactly the last character. */
  function ParseExpTime(t: string): (r: Result<ExpObj>)
    ensures r.Ok? <==> |t| > 0 && TimeUnitFromStr([t[|t| - 1]]).Ok?
    ensures !r.Ok? ==> r == Err(InvalidTimeUnit)
    ensures r.Ok? ==> TimeUnitAsStr(r.value.unit) == [t[|t| - 1]]
    ensures r.Ok? ==> r.value.number == ParseI64(t[..|t| - 1]).GetOr(DEFAULT_NUMBER)
  {
    var last := if |t| > 0 then t[|t| - 1] else ' ';
    var unit :- TimeUnitFromStr([last]);
    var number := ParseI64(t[..|t| - 1]).GetOr(DEFAULT_NUMBER);
    Ok(ExpObj(number, unit))
  }

  /** Writing a number and a unit letter and parsing the text gives them back. */
  lemma ParseExpTimeRoundTrip(n: i64, u: TimeUnit)
    ensures ParseExpTime(ShowInt(n) + TimeUnitAsStr(u)) == Ok(ExpObj(n, u))
  {
    var t := ShowInt(n) + TimeUnitAsStr(u);
    assert t[..|t| - 1] == ShowInt(n);
    ParseShowInt(n);
  }

  /** A number part that is not an `i64` (empty, signed wrongly, too large) silently
      becomes 14. */
  lemma ParseExpTimeFallback(s: string, u: TimeUnit)
    requires ParseI64(s) == None
    ensures ParseExpTime(s + TimeUnitAsStr(u)) == Ok(ExpObj(DEFAULT_NUMBER, u))
  {
    var t := s + TimeUnitAsStr(u);
    assert t[..|t| - 1] == s;
  }

  /** `i64::from_str` takes a leading `+` and leading zeros, so neither is a
      fallback: `+5D` is five days and `007D` seven. */
  lemma NonCanonicalNumbers()
    ensures ParseExpTime("+5D") == Ok(ExpObj(5, Day))
    ensures ParseExpTime("007D") == Ok(ExpObj(7, Day))
  {
    assert "+5D"[..2] == "+5";
    assert "+5"[1..] == "5";
    assert "007D"[..3] == "007";
    assert DigitsValue("007") == 7 by {
      assert "007"[..2] == "00" && "00"[..1] == "0" && "0"[..0] == "";
    }
  }

  /** The default is fourteen days; a bare unit letter is fourteen of that unit. */
  lemma DefaultExp()
    ensures ParseExpTime(DEFAULT_EXP) == Ok(ExpObj(14, Day))
    ensures ParseExpTime("M") == Ok(ExpObj(14, Month))
  {
    ParseExpTimeRoundTrip(14, Day);
    assert ShowNat(14) == ShowNat(1) + [DigitChar(4)];
    assert DEFAULT_EXP == ShowInt(14) + TimeUnitAsStr(Day);
    assert ParseI64("") == None;
    assert "" + "M" == "M";
    ParseExpTimeFallback("", Month);
  }

  /** Units are case-sensitive: `M` is a month, `m` a minute, and `d` is no unit. */
  lemma UnitCase()
    ensures TimeUnitFromStr("M") == Ok(Month) && TimeUnitFromStr("m") == Ok(Minute)
    ensures ParseExpTime("1d") == Err(InvalidTimeUnit)
  {
  }

  lemma TimeUnitNames(s: string, u: TimeUnit)
    ensures TimeUnitFromStr(s) == Ok(u) <==> s == TimeUnitAsStr(u)
  {
  }
}

=== FILE: cli_text_generate.dfy ===
/**
 * `TextKeyGenerateOpts::execute` in `src/cli/text.rs`: generate keys and write each
 * blob to its file in the output directory. This lives apart from the enumerations
 * of the same source file because it calls `process_generate_key`, which itself
 * depends on those enumerations.
 */
module CliTextGenerate {
  import opened Common
  import F = CliTextFormat
  import Text

  /** A file written into the output directory: its name and its contents. */
  datatype KeyFile = KeyFile(name: string, contents: Text.Bytes)

  const BLAKE3_FILE: string := "blake3.txt"
  const ED25519_SECRET_FILE: string := "ed25519.sk"
  const ED25519_PUBLIC_FILE: string := "ed25519.pk"

  /** The writes of `execute` for the generated blobs: `key[0]` to `blake3.txt`, or
      `key[0]` and `key[1]` to `ed25519.sk` and `ed25519.pk`. Indexing past the end
      of the blob list panics. */
  function KeyFiles(format: F.TextSignFormat, key: seq<Text.Bytes>): (r: Result<seq<KeyFile>>)
    ensures format == F.Blake3 ==> (r.Ok? <==> |key| >= 1)
    ensures format == F.Ed25519 ==> (r.Ok? <==> |key| >= 2)
    ensures !r.Ok? ==> r == Panic(IndexOutOfBounds)
    ensures r.Ok? ==> |r.value| <= |key| && forall i :: 0 <= i < |r.value| ==> r.value[i].contents == key[i]
    ensures r.Ok? && format == F.Blake3 ==> |r.value| == 1 && r.value[0].name == BLAKE3_FILE
    ensures r.Ok? && format == F.Ed25519 ==>
              |r.value| == 2 && r.value[0].name == ED25519_SECRET_FILE && r.value[1].name == ED25519_PUBLIC_FILE
  {
    match format
    case Blake3 =>
      if |key| < 1 then Panic(IndexOutOfBounds) else Ok([KeyFile(BLAKE3_FILE, key[0])])
    case Ed25519 =>
      if |key| < 2 then Panic(IndexOutOfBounds)
      else Ok([KeyFile(ED25519_SECRET_FILE, key[0]), KeyFile(ED25519_PUBLIC_FILE, key[1])])
  }

  /** The files written for the outcome of `process_generate_key`; a failure or a
      panic there is passed on and nothing is written. */
  function WriteKeyFiles(format: F.TextSignFormat, key: Result<seq<Text.Bytes>>): (r: Result<seq<KeyFile>>)
    ensures !key.Ok? ==> r == key.PropagateFailure()
    ensures key.Ok? ==> r == KeyFiles(format, key.value)
  {
    var blobs :- key;
    KeyFiles(format, blobs)
  }

  /** `TextKeyGenerateOpts::execute` as written, up to the writes: for BLAKE3 the
      generator panics before any file is written; for Ed25519 both files are written
      and each is accepted by the loader that reads it back. */
  method Execute(p: Text.Primitives, format: F.TextSignFormat) returns (r: Result<seq<KeyFile>>)
    ensures format == F.Blake3 ==> r == Panic(EmptyChoice)
    ensures format == F.Ed25519 ==>
              && r.Ok? && |r.value| == 2
              && r.value[0].name == ED25519_SECRET_FILE && r.value[1].name == ED25519_PUBLIC_FILE
              && Text.Ed25519SignerTryNew(r.value[0].contents).Ok?
              && r.value[1].contents == p.publicKey(r.value[0].contents)
              && (Text.Sound(p) ==> Text.Ed25519VerifierTryNew(p, r.value[1].contents).Ok?)
  {
    var key := Text.ProcessGenerateKey(p, format);
    r := WriteKeyFiles(format, key);
  }

  /** `TextKeyGenerateOpts::execute` over the corrected BLAKE3 generator: it never
      fails or panics, and every file it writes is accepted by the loader that reads
      that file back (`--key` of `text sign` and `text verify`). */
  method ExecuteCorrected(p: Text.Primitives, format: F.TextSignFormat) returns (r: Result<seq<KeyFile>>)
    ensures r.Ok?
    ensures format == F.Blake3 ==>
              && |r.value| == 1 && r.value[0].name == BLAKE3_FILE
              && Text.Blake3TryNew(r.value[0].contents).Ok?
    ensures format == F.Ed25519 ==>
              && |r.value| == 2
              && r.value[0].name == ED25519_SECRET_FILE && r.value[1].name == ED25519_PUBLIC_FILE
              && Text.Ed25519SignerTryNew(r.value[0].contents).Ok?
              && r.value[1].contents == p.publicKey(r.value[0].contents)
              && (Text.Sound(p) ==> Text.Ed25519VerifierTryNew(p, r.value[1].contents).Ok?)
  {
    var key := Text.ProcessGenerateKeyCorrected(p, format);
    r := KeyFiles(format, key.value);
  }

  /** The generated Ed25519 files form a working pair: text signed with the `.sk` file
      verifies with the `.pk` file. */
  lemma GeneratedPairVerifies(p: Text.Primitives, files: seq<KeyFile>, input: Text.Bytes)
    requires Text.Sound(p)
    requires |files| == 2 && |files[0].contents| == 32
    requires files[1].contents == p.publicKey(files[0].contents)
    ensures var sig := Text.ProcessTextSign(p, input, files[0].contents, F.Ed25519);
            && sig.Ok?
            && Text.ProcessTextVerify(p, input, files[1].contents, F.Ed25519, sig.value) == Ok(true)
  {
    Text.Ed25519TextRoundTrip(p, input, files[0].contents);
  }
}

=== FILE: common.dfy ===
/**
 * Types shared by every part of the model: bytes, the fixed-width integers the
 * source uses, and the outcome of an operation.
 *
 * A Rust function in this crate either returns `Ok`, returns an `anyhow` error
 * (`Err`), or panics (an `unwrap`, an `expect`, an out-of-range slice, or
 * arithmetic overflow in a debug build). The three are kept apart, because the
 * difference between "returns an error" and "aborts the process" is part of
 * what the model states.
 */
module Common {

  newtype byte = b: int | 0 <= b < 256
  /** Rust's `u8`, the same values as a byte. */
  type u8 = byte

  const I64_MIN: int := -0x8000_0000_0000_0000
  const I64_MAX: int := 0x7FFF_FFFF_FFFF_FFFF
  type i64 = x: int | I64_MIN <= x <= I64_MAX

  datatype Option<T> = None | Some(value: T) {
    function GetOr(default: T): T {
      match this
      case Some(v) => v
      case None => default
    }
  }

  /** Why a base64 decoder rejects its input (the base64 crate's `DecodeError`). */
  datatype DecodeError =
    | InvalidByte(symbol: char)   // a character outside the alphabet
    | InvalidLength               // a final group of a single symbol
    | InvalidLastSymbol           // the last symbol carries non-zero unused bits
    | InvalidPadding              // padding missing, misplaced or not allowed

  /** The errors the modelled code returns through `?` or `Err(..)`. */
  datatype Error =
    | InvalidFormat                  // `from_str` of a text or base64 format
    | InvalidTimeUnit                // `TimeUnit::from_str`
    | UnsupportedFormat(name: string) // `OutputFormat::from_str`
    | Base64(reason: DecodeError)    // a base64 decoder
    | KeyLength(len: nat)            // a key slice that is not exactly 32 bytes
    | InvalidPublicKey               // 32 bytes that are not an Ed25519 point
    | SignatureLength(len: nat)      // a signature slice that is not exactly 64 bytes
    | InvalidToken                   // `jsonwebtoken::decode` rejected the token
    | TimestampOutOfRange            // `OffsetDateTime::from_unix_timestamp` failed

  /** The panics the modelled code can reach. */
  datatype PanicKind =
    | SliceOutOfRange     // `&key[..32]` on a shorter slice
    | SubtractOverflow    // `u8` subtraction below zero
    | MultiplyOverflow    // `i64` multiplication out of range
    | EmptyChoice         // `choose(..).expect(..)` on an empty slice
    | IndexOutOfBounds    // `v[i]` with `i >= v.len()`
    | DurationOverflow    // `Duration::days` / `Duration::minutes` out of range
    | DateTimeOutOfRange  // `OffsetDateTime + Duration` out of range

  datatype Result<T> = Ok(value: T) | Err(error: Error) | Panic(kind: PanicKind) {
    predicate IsFailure() {
      !Ok?
    }

    function PropagateFailure<U>(): Result<U>
      requires !Ok?
    {
      if Err? then Err(error) else Panic(kind)
    }

    function Extract(): T
      requires Ok?
    {
      value
    }
  }

  /** Every byte is 7-bit ASCII. */
  predicate IsAsciiBytes(b: seq<byte>) {
    forall i :: 0 <= i < |b| ==> b[i] < 128
  }

  predicate IsAscii(s: string) {
    forall i :: 0 <= i < |s| ==> s[i] as int < 128
  }

  /** `String::from_utf8` on bytes that are all ASCII: one character per byte. */
  function AsciiString(b: seq<byte>): (s: string)
    requires IsAsciiBytes(b)
    ensures |s| == |b| && IsAscii(s)
  {
    seq(|b|, i requires 0 <= i < |b| => b[i] as int as char)
  }

  /** `str::as_bytes` on an ASCII string. */
  function AsciiBytes(s: string): (b: seq<byte>)
    requires IsAscii(s)
    ensures |b| == |s| && IsAsciiBytes(b)
  {
    seq(|s|, i requires 0 <= i < |s| => s[i] as int as byte)
  }

  /** Converting ASCII bytes to a string and back loses nothing, in both orders. */
  lemma AsciiRoundTrip(b: seq<byte>, s: string)
    requires IsAsciiBytes(b) && IsAscii(s)
    ensures AsciiBytes(AsciiString(b)) == b
    ensures AsciiString(AsciiBytes(s)) == s
  {
    assert forall i :: 0 <= i < |b| ==> AsciiBytes(AsciiString(b))[i] == b[i];
    assert forall i :: 0 <= i < |s| ==> AsciiString(AsciiBytes(s))[i] == s[i];
  }
}

=== FILE: gen_pass.dfy ===
/**
 * `src/process/gen_pass.rs`: `process_genpass`.
 *
 * The generator grows two vectors step by step: `chars`, the pool of enabled
 * character classes, and `password`, which first receives one character of every
 * enabled class and is then filled from the pool up to `length`, and finally
 * shuffled in place. Random choices are nondeterministic here (`:|`), so every
 * property below holds whatever the random generator returns.
 */
module GenPass {
  import opened Common

  /** The four character classes, in the order the generator visits them. */
  datatype CharClass = Upper | Lower | Number | Symbol

  /** `UPPER`, `LOWER`, `NUMBER` (note `1` to `9`, then `0`) and `SYMBOL`. */
  const UPPER: seq<byte> := [65, 66, 67, 68, 69, 70, 71, 72, 73, 74, 75, 76, 77, 78, 79, 80, 81, 82, 83, 84, 85, 86, 87, 88, 89, 90]
  const LOWER: seq<byte> := [97, 98, 99, 100, 101, 102, 103, 104, 105, 106, 107, 108, 109, 110, 111, 112, 113, 114, 115, 116, 117, 118, 119, 120, 121, 122]
  const NUMBER: seq<byte> := [49, 50, 51, 52, 53, 54, 55, 56, 57, 48]
  const SYMBOL: seq<byte> := [33, 64, 35, 36, 37, 94, 38, 42, 126, 44, 46, 59]

  function Members(c: CharClass): seq<byte> {
    match c
    case Upper => UPPER
    case Lower => LOWER
    case Number => NUMBER
    case Symbol => SYMBOL
  }

  /** The class tables spell the source's byte strings. */
  lemma UpperTable()
    ensures AsciiString(UPPER) == "ABCDEFGHIJKLMNOPQRSTUVWXYZ"
  {
  }

  lemma LowerTable()
    ensures AsciiString(LOWER) == "abcdefghijklmnopqrstuvwxyz"
  {
  }

  lemma NumberAndSymbolTables()
    ensures AsciiString(NUMBER) == "1234567890"
    ensures AsciiString(SYMBOL) == "!@#$%^&*~,.;"
  {
  }

  /** The class a byte belongs to, if any. */
  function ClassOf(b: byte): Option<CharClass> {
    if 65 <= b <= 90 then Some(Upper)
    else if 97 <= b <= 122 then Some(Lower)
    else if 48 <= b <= 57 then Some(Number)
    else if b in SYMBOL then Some(Symbol)
    else None
  }

  lemma UpperMembers(b: byte)
    ensures b in UPPER <==> 65 <= b <= 90
  {
    if 65 <= b <= 90 { assert UPPER[b - 65] == b; }
  }

  lemma LowerMembers(b: byte)
    ensures b in LOWER <==> 97 <= b <= 122
  {
    if 97 <= b <= 122 { assert LOWER[b - 97] == b; }
  }

  lemma NumberMembers(b: byte)
    ensures b in NUMBER <==> 48 <= b <= 57
  {
    if 49 <= b <= 57 { assert NUMBER[b - 49] == b; }
    if b == 48 { assert NUMBER[9] == b; }
  }

  /** The classes are disjoint: a byte is in a class exactly when `ClassOf` names it. */
  lemma ClassOfMembers(b: byte, c: CharClass)
    ensures b in Members(c) <==> ClassOf(b) == Some(c)
  {
    UpperMembers(b);
    LowerMembers(b);
    NumberMembers(b);
  }

  /** The `no_*` flags of one call. */
  datatype Exclusions = Exclusions(noUpper: bool, noLower: bool, noNumber: bool, noSymbol: bool)

  predicate Enabled(c: CharClass, ex: Exclusions) {
    match c
    case Upper => !ex.noUpper
    case Lower => !ex.noLower
    case Number => !ex.noNumber
    case Symbol => !ex.noSymbol
  }

  /** The pool `chars` once every enabled class is appended, in source order. */
  function Pool(ex: Exclusions): seq<byte> {
    (if ex.noUpper then [] else UPPER) + (if ex.noLower then [] else LOWER)
    + (if ex.noNumber then [] else NUMBER) + (if ex.noSymbol then [] else SYMBOL)
  }

  /** How many classes are enabled: the length of `password` after seeding. */
  function ClassCount(ex: Exclusions): nat {
    (if ex.noUpper then 0 else 1) + (if ex.noLower then 0 else 1)
    + (if ex.noNumber then 0 else 1) + (if ex.noSymbol then 0 else 1)
  }

  /** The pool holds exactly the bytes of the enabled classes. */
  lemma PoolMembers(b: byte, ex: Exclusions)
    ensures b in Pool(ex) <==> ClassOf(b).Some? && Enabled(ClassOf(b).value, ex)
  {
    ClassOfMembers(b, Upper);
    ClassOfMembers(b, Lower);
    ClassOfMembers(b, Number);
    ClassOfMembers(b, Symbol);
  }

  /** The pool is empty exactly when every class is excluded. */
  lemma EmptyPool(ex: Exclusions)
    ensures Pool(ex) == [] <==> ClassCount(ex) == 0
  {
  }

  /** Some byte of `pw` belongs to class `c`. */
  predicate Covers(pw: seq<byte>, c: CharClass) {
    exists i :: 0 <= i < |pw| && ClassOf(pw[i]) == Some(c)
  }

  lemma CoversLast(pw: seq<byte>, c: CharClass)
    requires |pw| > 0 && ClassOf(pw[|pw| - 1]) == Some(c)
    ensures Covers(pw, c)
  {
  }

  lemma CoversExtend(pw: seq<byte>, x: byte)
    ensures forall c :: Covers(pw, c) ==> Covers(pw + [x], c)
  {
    forall c | Covers(pw, c)
      ensures Covers(pw + [x], c)
    {
      var i :| 0 <= i < |pw| && ClassOf(pw[i]) == Some(c);
      assert (pw + [x])[i] == pw[i];
    }
  }

  /** What a generated password satisfies: its length, every byte drawn from the
      pool, and at least one byte of every enabled class. */
  predicate ValidPassword(pw: seq<byte>, length: nat, ex: Exclusions) {
    && |pw| == length
    && (forall i :: 0 <= i < |pw| ==> pw[i] in Pool(ex))
    && (forall c :: Enabled(c, ex) ==> Covers(pw, c))
  }

  /** A valid password holds no byte of a disabled class, and only ASCII. */
  lemma ValidPasswordClasses(pw: seq<byte>, length: nat, ex: Exclusions, i: nat, c: CharClass)
    requires ValidPassword(pw, length, ex) && i < |pw|
    ensures pw[i] in Members(c) ==> Enabled(c, ex)
    ensures pw[i] < 128
  {
    PoolMembers(pw[i], ex);
    ClassOfMembers(pw[i], c);
    ClassOfMembers(pw[i], ClassOf(pw[i]).value);
  }

  /** Reordering keeps a password valid. */
  lemma {:induction false} PermutationKeepsValid(s: seq<byte>, t: seq<byte>, length: nat, ex: Exclusions)
    requires ValidPassword(s, length, ex) && multiset(s) == multiset(t)
    ensures ValidPassword(t, length, ex)
  {
    assert |t| == |multiset(t)| == |multiset(s)| == |s|;
    forall i | 0 <= i < |t|
      ensures t[i] in Pool(ex)
    {
      assert t[i] in multiset(t);
    }
    forall c | Enabled(c, ex)
      ensures Covers(t, c)
    {
      var i :| 0 <= i < |s| && ClassOf(s[i]) == Some(c);
      assert s[i] in multiset(s);
      var j :| 0 <= j < |t| && t[j] == s[i];
    }
  }

  /** `SliceRandom::shuffle`: Fisher–Yates from the last index down, each swap
      partner chosen at random at or below the current index. */
  method Shuffle(a: array<byte>)
    modifies a
    ensures multiset(a[..]) == multiset(old(a[..]))
  {
    var i := a.Length;
    while i > 1
      invariant 0 <= i <= a.Length
      invariant multiset(a[..]) == multiset(old(a[..]))
    {
      i := i - 1;
      var j :| 0 <= j <= i;
      a[i], a[j] := a[j], a[i];
    }
  }

  /** Every byte of `pw` belongs to an enabled class. */
  predicate FromEnabled(pw: seq<byte>, ex: Exclusions) {
    forall i :: 0 <= i < |pw| ==> ClassOf(pw[i]).Some? && Enabled(ClassOf(pw[i]).value, ex)
  }

  /** One `if !no_*` block: append the class to the pool and push one character
      chosen from the class. */
  method SeedClass(c: CharClass, password: seq<byte>, chars: seq<byte>, ghost ex: Exclusions)
    returns (password': seq<byte>, chars': seq<byte>)
    requires Enabled(c, ex) && FromEnabled(password, ex)
    ensures chars' == chars + Members(c)
    ensures |password'| == |password| + 1
    ensures FromEnabled(password', ex)
    ensures forall d :: Covers(password, d) ==> Covers(password', d)
    ensures Covers(password', c)
  {
    chars' := chars + Members(c);
    assert Members(c)[0] in Members(c);
    var x :| x in Members(c);
    ClassOfMembers(x, c);
    CoversExtend(password, x);
    password' := password + [x];
    CoversLast(password', c);
  }

  /** Lines 19-50: build the pool and seed one character of every enabled class. */
  method Seed(ex: Exclusions) returns (password: seq<byte>, chars: seq<byte>)
    ensures chars == Pool(ex)
    ensures |password| == ClassCount(ex)
    ensures FromEnabled(password, ex)
    ensures forall c :: Enabled(c, ex) ==> Covers(password, c)
  {
    password, chars := [], [];
    if !ex.noUpper {
      password, chars := SeedClass(Upper, password, chars, ex);
    }
    assert chars == (if ex.noUpper then [] else UPPER);
    assert !ex.noUpper ==> Covers(password, Upper);
    if !ex.noLower {
      password, chars := SeedClass(Lower, password, chars, ex);
    }
    assert chars == (if ex.noUpper then [] else UPPER) + (if ex.noLower then [] else LOWER);
    assert !ex.noUpper ==> Covers(password, Upper);
    assert !ex.noLower ==> Covers(password, Lower);
    if !ex.noNumber {
      password, chars := SeedClass(Number, password, chars, ex);
    }
    assert chars == (if ex.noUpper then [] else UPPER) + (if ex.noLower then [] else LOWER)
                    + (if ex.noNumber then [] else NUMBER);
    assert !ex.noUpper ==> Covers(password, Upper);
    assert !ex.noLower ==> Covers(password, Lower);
    assert !ex.noNumber ==> Covers(password, Number);
    if !ex.noSymbol {
      password, chars := SeedClass(Symbol, password, chars, ex);
    }
    assert !ex.noUpper ==> Covers(password, Upper);
    assert !ex.noLower ==> Covers(password, Lower);
    assert !ex.noNumber ==> Covers(password, Number);
    forall c | Enabled(c, ex)
      ensures Covers(password, c)
    {
      match c
      case Upper =>
      case Lower =>
      case Number =>
      case Symbol =>
    }
  }

  /** Lines 52-59: draw `count` more characters from the pool; an empty pool panics
      at the first draw. */
  method Fill(password: seq<byte>, chars: seq<byte>, count: nat, ghost ex: Exclusions)
    returns (r: Result<seq<byte>>)
    requires forall i :: 0 <= i < |password| ==> password[i] in chars
    requires forall c :: Enabled(c, ex) ==> Covers(password, c)
    ensures r == Panic(EmptyChoice) <==> chars == [] && count > 0
    ensures r.Ok? || r == Panic(EmptyChoice)
    ensures r.Ok? ==> |r.value| == |password| + count
    ensures r.Ok? ==> forall i :: 0 <= i < |r.value| ==> r.value[i] in chars
    ensures r.Ok? ==> forall c :: Enabled(c, ex) ==> Covers(r.value, c)
  {
    var pw := password;
    for k := 0 to count
      invariant |pw| == |password| + k
      invariant forall i :: 0 <= i < |pw| ==> pw[i] in chars
      invariant forall c :: Enabled(c, ex) ==> Covers(pw, c)
      invariant k > 0 ==> chars != []
    {
      if chars == [] {
        return Panic(EmptyChoice);
      }
      assert chars[0] in chars;
      var c :| c in chars;
      CoversExtend(pw, c);
      pw := pw + [c];
    }
    return Ok(pw);
  }

  /** `process_genpass`. Subtracting the number of seeded characters from a smaller
      `length` overflows `u8` and panics (a debug build); an empty pool with
      characters still to draw panics at `expect`; otherwise the result is a valid
      password, and `String::from_utf8` cannot fail on it. */
  method ProcessGenPass(length: u8, noUpper: bool, noLower: bool, noNumber: bool, noSymbol: bool)
    returns (r: Result<string>)
    ensures var ex := Exclusions(noUpper, noLower, noNumber, noSymbol);
            && (r == Panic(SubtractOverflow) <==> length as int < ClassCount(ex))
            && (r == Panic(EmptyChoice) <==> ClassCount(ex) == 0 && length > 0)
            && (r.Ok? <==> ClassCount(ex) <= length as int && (ClassCount(ex) > 0 || length == 0))
            && (r.Ok? ==> IsAscii(r.value) && ValidPassword(AsciiBytes(r.value), length as int, ex))
  {
    var ex := Exclusions(noUpper, noLower, noNumber, noSymbol);
    var password, chars := Seed(ex);
    if length as int < |password| {
      return Panic(SubtractOverflow);
    }
    forall i | 0 <= i < |password|
      ensures password[i] in chars
    {
      PoolMembers(password[i], ex);
    }
    EmptyPool(ex);
    var filled := Fill(password, chars, length as int - |password|, ex);
    if !filled.Ok? {
      return filled.PropagateFailure();
    }
    password := filled.value;
    assert ValidPassword(password, length as int, ex);

    var a := new byte[|password|](i requires 0 <= i < |password| => password[i]);
    assert a[..] == password;
    Shuffle(a);
    PermutationKeepsValid(password, a[..], length as int, ex);
    password := a[..];

    forall i | 0 <= i < |password|
      ensures password[i] < 128
    {
      ValidPasswordClasses(password, length as int, ex, i, Upper);
    }
    AsciiRoundTrip(password, []);
    r := Ok(AsciiString(password));
  }
}

=== FILE: jwt.dfy ===
/**
 * `src/process/jwt.rs`: the claims of a signed token (RFC 7519) and the arithmetic
 * of their times.
 *
 * An `OffsetDateTime` in UTC is a whole number of nanoseconds since the Unix epoch,
 * inside the range the `time` crate represents by default (the years -9999 to
 * 9999). The current time is a parameter. `jsonwebtoken::encode` and `decode`
 * are not modelled: signing stops at the claims and the secret handed to the
 * encoder, and verification takes the decoder as a parameter.
 */
module Jwt {
  import opened Common
  import opened Strings
  import opened CliJwt

  const NANOS_PER_SECOND: int := 1_000_000_000
  const SECONDS_PER_MINUTE: int := 60
  const SECONDS_PER_DAY: int := 86_400
  const DAYS_PER_MONTH: int := 30

  /** `OffsetDateTime::from_unix_timestamp` accepts exactly these seconds. */
  const MIN_UNIX_SECONDS: int := -377_705_116_800
  const MAX_UNIX_SECONDS: int := 253_402_300_799

  type DateTime = t: int | MIN_UNIX_SECONDS * NANOS_PER_SECOND <= t < (MAX_UNIX_SECONDS + 1) * NANOS_PER_SECOND
    witness 0

  predicate InI64(x: int) {
    I64_MIN <= x <= I64_MAX
  }

  /** The length in seconds that an expiry specification stands for (RFC 7519
      section 4.1.4 `exp`, relative to `iat`). A month is thirty days. */
  function UnitSeconds(u: TimeUnit): nat {
    match u
    case Month => DAYS_PER_MONTH * SECONDS_PER_DAY
    case Day => SECONDS_PER_DAY
    case Minute => SECONDS_PER_MINUTE
  }

  /** `Duration::days`: panics when the seconds leave `i64`. */
  function Days(n: i64): (r: Result<int>)
    ensures r.Ok? <==> InI64(n * SECONDS_PER_DAY)
    ensures r.Ok? ==> r.value == n * SECONDS_PER_DAY
    ensures !r.Ok? ==> r == Panic(DurationOverflow)
  {
    if InI64(n * SECONDS_PER_DAY) then Ok(n * SECONDS_PER_DAY) else Panic(DurationOverflow)
  }

  /** The `Duration` of lines 23-27, in seconds: `exp.number * 30` is an `i64`
      product (a debug build panics on overflow), and `Duration::days` and
      `Duration::minutes` panic when their seconds overflow. */
  function ExpiryDuration(exp: ExpObj): (r: Result<int>)
    ensures r.Ok? <==> InI64(exp.number * UnitSeconds(exp.unit))
    ensures r.Ok? ==> r.value == exp.number * UnitSeconds(exp.unit)
    ensures !r.Ok? ==> r.Panic?
  {
    match exp.unit
    case Month =>
      var days := exp.number * DAYS_PER_MONTH;
      if !InI64(days) then Panic(MultiplyOverflow) else Days(days)
    case Day => Days(exp.number)
    case Minute =>
      var secs := exp.number * SECONDS_PER_MINUTE;
      if InI64(secs) then Ok(secs) else Panic(DurationOverflow)
  }

  /** The nanosecond counts an `OffsetDateTime` can hold. */
  predicate Representable(t: int) {
    MIN_UNIX_SECONDS * NANOS_PER_SECOND <= t < (MAX_UNIX_SECONDS + 1) * NANOS_PER_SECOND
  }

  /** `OffsetDateTime + Duration`: panics when the sum leaves the representable range. */
  function AddSeconds(t: DateTime, secs: int): (r: Result<DateTime>)
    ensures r.Ok? <==> Representable(t + secs * NANOS_PER_SECOND)
    ensures r.Ok? ==> r.value == t + secs * NANOS_PER_SECOND
    ensures !r.Ok? ==> r == Panic(DateTimeOutOfRange)
  {
    var sum := t + secs * NANOS_PER_SECOND;
    if Representable(sum) then Ok(sum) else Panic(DateTimeOutOfRange)
  }

  /** The `exp` time computed from `iat` in `process_jwt_sign`: it exists exactly when
      the duration fits an `i64` and the sum stays representable. */
  function Expiry(iat: DateTime, exp: ExpObj): (r: Result<DateTime>)
    ensures r.Ok? <==> && InI64(exp.number * UnitSeconds(exp.unit))
                       && Representable(iat + exp.number * UnitSeconds(exp.unit) * NANOS_PER_SECOND)
    ensures r.Ok? ==> r.value == iat + exp.number * UnitSeconds(exp.unit) * NANOS_PER_SECOND
    ensures !r.Ok? ==> r.Panic?
  {
    var secs :- ExpiryDuration(exp);
    AddSeconds(iat, secs)
  }

  /** Lines 79-88: keep the date, hour, minute and second, and zero the rest. */
  function TruncateToSecond(t: DateTime): (r: DateTime)
    ensures r % NANOS_PER_SECOND == 0
    ensures r <= t < r + NANOS_PER_SECOND
  {
    t - t % NANOS_PER_SECOND
  }

  /** Lines 92-96: the comma-separated audiences, each trimmed, as a set. */
  function Audience(aud: string): (r: set<string>)
    ensures forall k :: 0 <= k < |Split(aud, ',')| ==> Trim(Split(aud, ',')[k]) in r
    ensures forall x :: x in r ==> exists k :: 0 <= k < |Split(aud, ',')| && x == Trim(Split(aud, ',')[k])
    ensures forall x :: x in r ==> ',' !in x && Trimmed(x)
  {
    SplitJoin(aud, ',');
    forall p | p in Split(aud, ',')
      ensures ',' !in Trim(p) && Trimmed(Trim(p))
    {
      var i, j := TrimSlice(p);
    }
    set p | p in Split(aud, ',') :: Trim(p)
  }

  /** The claims: `sub`, `aud`, `iat` and `exp` of RFC 7519 section 4.1, plus the
      input text. */
  datatype Claims = Claims(sub: string, aud: Option<set<string>>, input: string, iat: DateTime, exp: DateTime)

  /** `Claims::new`: both times truncated to whole seconds, the audience always
      present. */
  function ClaimsNew(sub: string, aud: string, input: string, iat: DateTime, exp: DateTime): (c: Claims)
    ensures c.aud == Some(Audience(aud))
    ensures c.sub == sub && c.input == input
    ensures c.iat % NANOS_PER_SECOND == 0 && c.iat <= iat < c.iat + NANOS_PER_SECOND
    ensures c.exp % NANOS_PER_SECOND == 0 && c.exp <= exp < c.exp + NANOS_PER_SECOND
  {
    Claims(sub, Some(Audience(aud)), input, TruncateToSecond(iat), TruncateToSecond(exp))
  }

  /** A comma-separated list of names comes back as exactly the set of the names,
      each with the whitespace around it removed. */
  lemma AudienceOfList(parts: seq<string>)
    requires |parts| >= 1
    requires forall k :: 0 <= k < |parts| ==> ',' !in parts[k]
    ensures Audience(Join(parts, ',')) == set k | 0 <= k < |parts| :: Trim(parts[k])
  {
    JoinSplit(parts, ',');
  }

  /** An empty `--aud` is the one empty audience, not no audience. */
  lemma EmptyAudience()
    ensures Audience("") == {""}
  {
    assert Join([""], ',') == "";
    JoinSplit([""], ',');
    assert Trim("") == "";
  }

  /** An audience given without commas is one trimmed audience, and naming it twice
      changes nothing. */
  lemma RepeatedAudience(x: string)
    requires ',' !in x
    ensures Audience(x) == {Trim(x)}
    ensures Audience(x + "," + x) == Audience(x)
  {
    SplitNoSeparator(x, ',');
    SplitPrefix(x, x, ',');
    assert Split(x + "," + x, ',') == [x, x];
  }

  /** `jwt_numeric_date::serialize`: `unix_timestamp`, the whole seconds at or before
      the time (RFC 7519 section 2, NumericDate). */
  function Serialize(t: DateTime): (secs: i64)
    ensures MIN_UNIX_SECONDS <= secs <= MAX_UNIX_SECONDS
    ensures secs * NANOS_PER_SECOND <= t < (secs + 1) * NANOS_PER_SECOND
  {
    t / NANOS_PER_SECOND
  }

  /** `jwt_numeric_date::deserialize`: `from_unix_timestamp` rejects seconds outside
      the representable range. */
  function Deserialize(secs: i64): (r: Result<DateTime>)
    ensures r.Ok? <==> MIN_UNIX_SECONDS <= secs <= MAX_UNIX_SECONDS
    ensures !r.Ok? ==> r == Err(TimestampOutOfRange)
    ensures r.Ok? ==> Serialize(r.value) == secs
  {
    if MIN_UNIX_SECONDS <= secs <= MAX_UNIX_SECONDS then Ok(secs * NANOS_PER_SECOND)
    else Err(TimestampOutOfRange)
  }

  /** A whole-second time survives serialising and deserialising, so the times of
      every `Claims::new` do. */
  lemma NumericDateRoundTrip(t: DateTime)
    requires t % NANOS_PER_SECOND == 0
    ensures Deserialize(Serialize(t)) == Ok(t)
  {
  }

  /** The secret `process_jwt_sign` hands to the encoder: the `--secret` text as is. */
  function SigningSecret(secret: string): string {
    secret
  }

  /** The claims `process_jwt_sign` encodes, with `now` for `OffsetDateTime::now_utc`
      and `input` for the text read from the input. */
  function ProcessJwtSign(now: DateTime, input: string, sub: string, aud: string, exp: ExpObj): (r: Result<Claims>)
    ensures r.Ok? <==> Expiry(now, exp).Ok?
    ensures r.Ok? ==> r.value == ClaimsNew(sub, aud, input, now, Expiry(now, exp).value)
    ensures !r.Ok? ==> r.Panic?
  {
    var e :- Expiry(now, exp);
    Ok(ClaimsNew(sub, aud, input, now, e))
  }

  /** In the serialised claims, `exp - iat` is exactly the requested number of units
      in seconds: truncation does not disturb a whole-second offset. */
  lemma ExpiryOffset(now: DateTime, input: string, sub: string, aud: string, exp: ExpObj)
    requires ProcessJwtSign(now, input, sub, aud, exp).Ok?
    ensures var c := ProcessJwtSign(now, input, sub, aud, exp).value;
            Serialize(c.exp) - Serialize(c.iat) == exp.number * UnitSeconds(exp.unit)
  {
    var c := ProcessJwtSign(now, input, sub, aud, exp).value;
    var d := exp.number * UnitSeconds(exp.unit);
    var e := Expiry(now, exp).value;
    assert e == now + d * NANOS_PER_SECOND;
    ShiftFloor(now, d);
  }

  lemma ShiftFloor(t: int, d: int)
    ensures (t + d * NANOS_PER_SECOND) / NANOS_PER_SECOND == t / NANOS_PER_SECOND + d
    ensures (t + d * NANOS_PER_SECOND) % NANOS_PER_SECOND == t % NANOS_PER_SECOND
  {
  }

  /** `process_jwt_verify` after the token text is read: the decoder is given the
      trimmed token and the trimmed secret. A decoding failure is an error; any
      success is `true`, so the result is never `false`. */
  function ProcessJwtVerify(decode: (string, string) -> Option<Claims>, token: string, secret: string)
    : (r: Result<bool>)
    ensures r != Ok(false)
    ensures r.Ok? <==> decode(Trim(token), VerifyingSecret(secret)).Some?
    ensures !r.Ok? ==> r == Err(InvalidToken)
  {
    match decode(Trim(token), VerifyingSecret(secret))
    case Some(_) => Ok(true)
    case None => Err(InvalidToken)
  }

  /** The secret `process_jwt_verify` hands to the decoder. */
  function VerifyingSecret(secret: string): string {
    Trim(secret)
  }

  /** Whitespace around the token, such as the newline that ends a token file, does
      not change the verdict. */
  lemma VerifyIgnoresWhitespace(decode: (string, string) -> Option<Claims>, token: string, secret: string,
                                lead: string, trail: string)
    requires AllWhitespace(lead) && AllWhitespace(trail)
    ensures ProcessJwtVerify(decode, lead + token + trail, secret) == ProcessJwtVerify(decode, token, secret)
  {
    TrimAbsorbs(lead, token, trail);
  }

  /** Signing uses the secret as given and verifying uses it trimmed, so the two
      agree exactly when the secret has no surrounding whitespace. */
  lemma SecretsAgree(secret: string)
    ensures SigningSecret(secret) == VerifyingSecret(secret) <==> Trimmed(secret)
  {
    TrimFixed(secret);
  }
}

=== FILE: strings.dfy ===
/**
 * The parts of Rust's `str` that the modelled code relies on: `trim`,
 * `split` on a character, and `parse::<i64>()`, together with the decimal
 * rendering that `parse` inverts.
 */
module Strings {
  import opened Common

  /** `char::is_whitespace`: the Unicode White_Space property. */
  predicate IsWhitespace(c: char) {
    || ('\t' <= c <= '\r')
    || c == ' ' || c == '\U{0085}' || c == '\U{00A0}' || c == '\U{1680}'
    || ('\U{2000}' <= c <= '\U{200A}')
    || c == '\U{2028}' || c == '\U{2029}' || c == '\U{202F}' || c == '\U{205F}' || c == '\U{3000}'
  }

  predicate AllWhitespace(s: string) {
    forall i :: 0 <= i < |s| ==> IsWhitespace(s[i])
  }

  /** Neither end of `s` is whitespace (trivially so for the empty string). */
  predicate Trimmed(s: string) {
    s == [] || (!IsWhitespace(s[0]) && !IsWhitespace(s[|s| - 1]))
  }

  /** `str::trim_start`: the longest whitespace prefix is removed. */
  function TrimStart(s: string): (r: string)
    ensures |r| <= |s| && r == s[|s| - |r|..]
    ensures AllWhitespace(s[..|s| - |r|])
    ensures r == [] || !IsWhitespace(r[0])
  {
    if |s| > 0 && IsWhitespace(s[0]) then
      var r := TrimStart(s[1..]);
      assert s[..|s| - |r|] == [s[0]] + s[1..][..|s| - 1 - |r|];
      r
    else s
  }

  /** `str::trim_end`: the longest whitespace suffix is removed. */
  function TrimEnd(s: string): (r: string)
    ensures |r| <= |s| && r == s[..|r|]
    ensures AllWhitespace(s[|r|..])
    ensures r == [] || !IsWhitespace(r[|r| - 1])
  {
    if |s| > 0 && IsWhitespace(s[|s| - 1]) then
      var r := TrimEnd(s[..|s| - 1]);
      assert s[|r|..] == s[..|s| - 1][|r|..] + [s[|s| - 1]];
      r
    else s
  }

  /** `str::trim`: whitespace removed from both ends. */
  function Trim(s: string): (r: string)
    ensures |r| <= |s| && Trimmed(r)
    ensures r == [] <==> AllWhitespace(s)
  {
    TrimEnd(TrimStart(s))
  }

  /** Trim keeps a contiguous slice of its input, drops only whitespace, and leaves no
      whitespace at either end. */
  lemma TrimSlice(s: string) returns (i: nat, j: nat)
    ensures i <= j <= |s| && Trim(s) == s[i..j]
    ensures AllWhitespace(s[..i]) && AllWhitespace(s[j..])
    ensures Trimmed(Trim(s))
  {
    var t := TrimStart(s);
    var r := TrimEnd(t);
    i := |s| - |t|;
    j := i + |r|;
    assert s[i..j] == t[..|r|];
    assert s[j..] == t[|r|..];
    if r != [] {
      assert r[0] == t[0];
    }
  }

  /** Trimming text that does not begin or end with whitespace, wrapped in
      whitespace on both sides, gives back exactly that text. */
  lemma {:induction false} TrimWrapped(lead: string, t: string, trail: string)
    requires AllWhitespace(lead) && AllWhitespace(trail) && Trimmed(t)
    ensures Trim(lead + t + trail) == t
  {
    if t == [] {
      assert lead + t + trail == lead + trail;
      AllWhitespaceTrims(lead + trail);
    } else {
      assert lead + t + trail == lead + (t + trail);
      TrimStartWrapped(lead, t + trail);
      TrimEndWrapped(t, trail);
    }
  }

  /** Extra whitespace around a string does not change its trimmed form. */
  lemma TrimAbsorbs(lead: string, s: string, trail: string)
    requires AllWhitespace(lead) && AllWhitespace(trail)
    ensures Trim(lead + s + trail) == Trim(s)
  {
    var i, j := TrimSlice(s);
    WhitespaceConcat(lead, s[..i]);
    WhitespaceConcat(s[j..], trail);
    Regroup(lead, s, i, j, trail);
    TrimWrapped(lead + s[..i], s[i..j], s[j..] + trail);
  }

  /** Cutting `s` at `i` and `j` and regrouping the pieces with what surrounds it. */
  lemma Regroup(a: string, s: string, i: nat, j: nat, e: string)
    requires i <= j <= |s|
    ensures a + s + e == (a + s[..i]) + s[i..j] + (s[j..] + e)
  {
    assert s == s[..i] + s[i..j] + s[j..];
  }

  lemma WhitespaceConcat(a: string, b: string)
    requires AllWhitespace(a) && AllWhitespace(b)
    ensures AllWhitespace(a + b)
  {
    forall k | 0 <= k < |a + b|
      ensures IsWhitespace((a + b)[k])
    {
      if k >= |a| { assert (a + b)[k] == b[k - |a|]; }
    }
  }

  /** Trimming changes exactly the strings that begin or end with whitespace. */
  lemma TrimFixed(s: string)
    ensures Trim(s) == s <==> Trimmed(s)
  {
    if Trimmed(s) {
      assert [] + s + [] == s;
      TrimWrapped([], s, []);
    } else {
      var i, j := TrimSlice(s);
    }
  }

  lemma AllWhitespaceTrims(s: string)
    requires AllWhitespace(s)
    ensures Trim(s) == []
  {
    var i, j := TrimSlice(s);
  }

  lemma {:induction false} TrimStartWrapped(lead: string, rest: string)
    requires AllWhitespace(lead) && (rest == [] || !IsWhitespace(rest[0]))
    ensures TrimStart(lead + rest) == rest
  {
    if lead != [] {
      assert (lead + rest)[1..] == lead[1..] + rest;
      TrimStartWrapped(lead[1..], rest);
    }
  }

  lemma {:induction false} TrimEndWrapped(body: string, trail: string)
    requires AllWhitespace(trail) && (body == [] || !IsWhitespace(body[|body| - 1]))
    ensures TrimEnd(body + trail) == body
  {
    if trail != [] {
      assert (body + trail)[..|body + trail| - 1] == body + trail[..|trail| - 1];
      TrimEndWrapped(body, trail[..|trail| - 1]);
    } else {
      assert body + trail == body;
    }
  }

  // ---------------------------------------------------------------------------
  // str::split(char)

  /** `str::split(sep)`: the pieces between separators, always at least one. */
  function Split(s: string, sep: char): (r: seq<string>)
    ensures |r| >= 1
    ensures forall k :: 0 <= k < |r| ==> sep !in r[k]
    ensures |r| == 1 + multiset(s)[sep]
  {
    if s == [] then [[]]
    else
      var rest := Split(s[1..], sep);
      assert s == [s[0]] + s[1..];
      if s[0] == sep then [[]] + rest
      else [[s[0]] + rest[0]] + rest[1..]
  }

  /** The inverse of `Split`: the pieces glued back with the separator between them. */
  function Join(parts: seq<string>, sep: char): string
    requires |parts| >= 1
  {
    if |parts| == 1 then parts[0] else parts[0] + [sep] + Join(parts[1..], sep)
  }

  predicate NoSeparator(parts: seq<string>, sep: char) {
    forall k :: 0 <= k < |parts| ==> sep !in parts[k]
  }

  /** No piece contains the separator, and joining the pieces restores the input. */
  lemma {:induction false} SplitJoin(s: string, sep: char)
    ensures NoSeparator(Split(s, sep), sep)
    ensures Join(Split(s, sep), sep) == s
  {
    if s != [] {
      var rest := Split(s[1..], sep);
      SplitJoin(s[1..], sep);
      assert s == [s[0]] + s[1..];
      if s[0] == sep {
        assert ([[]] + rest)[1..] == rest;
      } else {
        JoinExtendHead([s[0]], rest, sep);
        SplitPieceNoSeparator(s[0], rest, sep);
      }
    }
  }

  /** Prepending to the first piece prepends to the join. */
  lemma JoinExtendHead(x: string, parts: seq<string>, sep: char)
    requires |parts| >= 1
    ensures Join([x + parts[0]] + parts[1..], sep) == x + Join(parts, sep)
  {
    var r := [x + parts[0]] + parts[1..];
    assert r[1..] == parts[1..];
  }

  lemma SplitPieceNoSeparator(c: char, rest: seq<string>, sep: char)
    requires |rest| >= 1 && NoSeparator(rest, sep) && c != sep
    ensures NoSeparator([[c] + rest[0]] + rest[1..], sep)
  {
    var r := [[c] + rest[0]] + rest[1..];
    forall k | 0 <= k < |r|
      ensures sep !in r[k]
    {
      if k > 0 { assert r[k] == rest[k]; }
    }
  }

  /** Splitting a join of separator-free pieces gives back the pieces. */
  lemma {:induction false} JoinSplit(parts: seq<string>, sep: char)
    requires |parts| >= 1 && NoSeparator(parts, sep)
    ensures Split(Join(parts, sep), sep) == parts
  {
    if |parts| == 1 {
      SplitNoSeparator(parts[0], sep);
    } else {
      JoinSplit(parts[1..], sep);
      SplitPrefix(parts[0], Join(parts[1..], sep), sep);
      assert [parts[0]] + parts[1..] == parts;
    }
  }

  lemma {:induction false} SplitNoSeparator(s: string, sep: char)
    requires sep !in s
    ensures Split(s, sep) == [s]
  {
    if s != [] {
      SplitNoSeparator(s[1..], sep);
      assert [s[0]] + s[1..] == s;
    }
  }

  lemma {:induction false} SplitPrefix(p: string, rest: string, sep: char)
    requires sep !in p
    ensures Split(p + [sep] + rest, sep) == [p] + Split(rest, sep)
  {
    var s := p + [sep] + rest;
    if p == [] {
      assert s[0] == sep && s[1..] == rest;
    } else {
      assert s[0] == p[0] && s[1..] == p[1..] + [sep] + rest;
      SplitPrefix(p[1..], rest, sep);
      assert [p[0]] + p[1..] == p;
    }
  }

  // ---------------------------------------------------------------------------
  // Decimal integers: `i64::from_str` and the rendering it inverts.

  predicate IsDigit(c: char) {
    '0' <= c <= '9'
  }

  function DigitValue(c: char): nat
    requires IsDigit(c)
  {
    c as int - '0' as int
  }

  predicate AllDigits(s: string) {
    forall i :: 0 <= i < |s| ==> IsDigit(s[i])
  }

  /** The value of a run of decimal digits, most significant first. */
  function DigitsValue(s: string): nat
    requires AllDigits(s)
  {
    if s == [] then 0 else DigitsValue(s[..|s| - 1]) * 10 + DigitValue(s[|s| - 1])
  }

  /** `i64::from_str`: an optional `+` or `-`, then one or more ASCII digits,
      and a value inside the `i64` range. Anything else is `None`. */
  function ParseI64(s: string): (r: Option<i64>)
    ensures r.Some? ==> && s != [] && (IsDigit(s[0]) || ((s[0] == '+' || s[0] == '-') && |s| >= 2))
                        && forall i :: 1 <= i < |s| ==> IsDigit(s[i])
    ensures s != [] && AllDigits(s) && DigitsValue(s) <= I64_MAX ==> r == Some(DigitsValue(s) as int)
    ensures s != [] && AllDigits(s) && DigitsValue(s) > I64_MAX ==> r == None
    ensures |s| >= 2 && (s[0] == '+' || s[0] == '-') && AllDigits(s[1..]) ==>
              var v: int := if s[0] == '-' then -(DigitsValue(s[1..]) as int) else DigitsValue(s[1..]);
              && (r.Some? <==> I64_MIN <= v <= I64_MAX)
              && (r.Some? ==> r.value == v)
  {
    var neg := |s| > 0 && s[0] == '-';
    var digits := if |s| > 0 && (s[0] == '-' || s[0] == '+') then s[1..] else s;
    if digits == [] || !AllDigits(digits) then None
    else
      var v: int := if neg then -(DigitsValue(digits) as int) else DigitsValue(digits);
      if I64_MIN <= v <= I64_MAX then Some(v) else None
  }

  function DigitChar(d: nat): (c: char)
    requires d < 10
    ensures IsDigit(c) && DigitValue(c) == d
  {
    ('0' as int + d) as char
  }

  /** Decimal rendering of a natural number, without leading zeros. */
  function ShowNat(n: nat): (s: string)
    ensures s != [] && AllDigits(s)
  {
    if n < 10 then [DigitChar(n)] else ShowNat(n / 10) + [DigitChar(n % 10)]
  }

  /** Decimal rendering of an integer, `-` first when negative (Rust's `{}`). */
  function ShowInt(n: int): string {
    if n < 0 then "-" + ShowNat(-n) else ShowNat(n)
  }

  lemma {:induction false} ShowNatValue(n: nat)
    ensures DigitsValue(ShowNat(n)) == n
  {
    if n >= 10 {
      var s := ShowNat(n);
      ShowNatValue(n / 10);
      assert s[..|s| - 1] == ShowNat(n / 10);
    }
  }

  /** `parse::<i64>()` reads back every `i64` rendered in decimal. */
  lemma ParseShowInt(n: i64)
    ensures ParseI64(ShowInt(n)) == Some(n)
  {
    var s := ShowInt(n);
    if n < 0 {
      var m: nat := -(n as int);
      assert s[0] == '-' && s[1..] == ShowNat(m);
      ShowNatValue(m);
    } else {
      assert s == ShowNat(n) && !(s[0] == '-' || s[0] == '+');
      ShowNatValue(n);
    }
  }

  /** `parse::<i64>()` rejects the empty string, a lone sign, and any
      character that is neither a sign in front nor a digit. */
  lemma ParseI64Rejects(s: string, i: nat)
    requires i < |s| && !IsDigit(s[i]) && !(i == 0 && (s[0] == '+' || s[0] == '-'))
    ensures ParseI64(s) == None
  {
    if |s| > 0 && (s[0] == '-' || s[0] == '+') {
      assert s[1..][i - 1] == s[i];
    }
  }
}

=== FILE: text.dfy ===
/**
 * `src/process/text.rs`: signing and verifying text with a BLAKE3 keyed hash or
 * with Ed25519, loading keys from their file contents, and generating keys.
 *
 * The cryptographic primitives are not modelled. They are the fields of a
 * `Primitives` record, and `Sound` states the only facts the model relies on: the
 * output widths, that the public key of a secret key is a valid point, and that
 * verification accepts what signing produced. Reading the input and the key files
 * is left to the caller: the operations take the bytes that were read.
 */
module Text {
  import opened Common
  import F = CliTextFormat
  import Base64
  import GenPass

  type Bytes = seq<byte>

  /** A 32-byte array (`[u8; 32]`): a BLAKE3 key, an Ed25519 secret or public key. */
  type Key = k: Bytes | |k| == 32 witness [0, 0, 0, 0, 0, 0, 0, 0, 0, 0, 0, 0, 0, 0, 0, 0,
                                             0, 0, 0, 0, 0, 0, 0, 0, 0, 0, 0, 0, 0, 0, 0, 0]

  /** A 64-byte Ed25519 signature (`Signature::to_bytes`). */
  type Sig = s: Bytes | |s| == 64 witness seq(64, _ => 0)

  /** The primitives: `blake3::keyed_hash` (a 32-byte hash), `SigningKey::verifying_key`
      (32 bytes), `SigningKey::sign` (64 bytes), whether `VerifyingKey::from_bytes`
      accepts 32 bytes as a curve point, and whether `VerifyingKey::verify` accepts. */
  datatype Primitives = Primitives(
    keyedHash: (Key, Bytes) -> Key,
    publicKey: Key -> Key,
    sign: (Key, Bytes) -> Sig,
    pointValid: Key -> bool,
    verify: (Key, Bytes, Sig) -> bool)

  /** What the model assumes of the primitives: a derived public key is a valid point,
      and it accepts every signature made with its secret key. */
  ghost predicate Sound(p: Primitives) {
    && (forall sk: Key :: p.pointValid(p.publicKey(sk)))
    && (forall sk: Key, m: Bytes :: p.verify(p.publicKey(sk), m, p.sign(sk, m)))
  }

  datatype Blake3 = Blake3(key: Key)
  datatype Ed25519Signer = Ed25519Signer(key: Key)
  datatype Ed25519Verifier = Ed25519Verifier(key: Key)

  // ---------------------------------------------------------------------------
  // Loading keys (`try_new` on the bytes `fs::read` returned)

  /** `Blake3::try_new`: `&key[..32]` panics on a shorter key, and a longer key is
      cut to its first 32 bytes. */
  function Blake3TryNew(key: Bytes): (r: Result<Blake3>)
    ensures r.Ok? <==> |key| >= 32
    ensures !r.Ok? ==> r == Panic(SliceOutOfRange)
    ensures r.Ok? ==> r.value.key == key[..32]
  {
    if |key| < 32 then Panic(SliceOutOfRange) else Ok(Blake3(key[..32]))
  }

  /** Only the first 32 bytes of a BLAKE3 key file matter. */
  lemma Blake3KeyTailIgnored(key: Key, tail: Bytes)
    ensures Blake3TryNew(key + tail) == Blake3TryNew(key)
  {
    assert (key + tail)[..32] == key == key[..32];
  }

  /** `Ed25519Signer::try_new`: the key must be exactly 32 bytes; every 32 bytes
      are a secret key. */
  function Ed25519SignerTryNew(key: Bytes): (r: Result<Ed25519Signer>)
    ensures r.Ok? <==> |key| == 32
    ensures !r.Ok? ==> r == Err(KeyLength(|key|))
    ensures r.Ok? ==> r.value.key == key
  {
    if |key| != 32 then Err(KeyLength(|key|)) else Ok(Ed25519Signer(key))
  }

  /** `Ed25519Verifier::try_new`: the key must be exactly 32 bytes and decode to a
      curve point; both failures are errors, not panics. */
  function Ed25519VerifierTryNew(p: Primitives, key: Bytes): (r: Result<Ed25519Verifier>)
    ensures r.Ok? <==> |key| == 32 && p.pointValid(key)
    ensures |key| != 32 ==> r == Err(KeyLength(|key|))
    ensures |key| == 32 && !p.pointValid(key) ==> r == Err(InvalidPublicKey)
    ensures r.Ok? ==> r.value.key == key
  {
    if |key| != 32 then Err(KeyLength(|key|))
    else if !p.pointValid(key) then Err(InvalidPublicKey)
    else Ok(Ed25519Verifier(key))
  }

  // ---------------------------------------------------------------------------
  // Signing and verifying the bytes read from the input

  /** `TextSign for Blake3`: the keyed hash of the input. */
  function Blake3Sign(p: Primitives, signer: Blake3, msg: Bytes): (sig: Bytes)
    ensures |sig| == 32 && sig == p.keyedHash(signer.key, msg)
  {
    p.keyedHash(signer.key, msg)
  }

  /** `TextVerify for Blake3`: recompute the hash and compare whole vectors. It never
      fails; any difference, of length or of content, is `false`. */
  function Blake3Verify(p: Primitives, verifier: Blake3, msg: Bytes, sig: Bytes): (r: Result<bool>)
    ensures r.Ok?
    ensures r.value <==> sig == Blake3Sign(p, verifier, msg)
  {
    Ok(p.keyedHash(verifier.key, msg) == sig)
  }

  /** `TextSign for Ed25519Signer`. */
  function Ed25519Sign(p: Primitives, signer: Ed25519Signer, msg: Bytes): (sig: Bytes)
    ensures |sig| == 64 && sig == p.sign(signer.key, msg)
  {
    p.sign(signer.key, msg)
  }

  /** `TextVerify for Ed25519Verifier`: `sig.try_into()?` fails unless the signature
      is exactly 64 bytes; otherwise the result is whether it verifies. */
  function Ed25519Verify(p: Primitives, verifier: Ed25519Verifier, msg: Bytes, sig: Bytes): (r: Result<bool>)
    ensures r.Err? <==> |sig| != 64
    ensures !r.Ok? ==> r == Err(SignatureLength(|sig|))
    ensures r.Ok? ==> r.value == p.verify(verifier.key, msg, sig)
  {
    if |sig| != 64 then Err(SignatureLength(|sig|)) else Ok(p.verify(verifier.key, msg, sig))
  }

  /** The BLAKE3 signature of a message verifies with the same key. */
  lemma Blake3SignVerify(p: Primitives, key: Blake3, msg: Bytes)
    ensures Blake3Verify(p, key, msg, Blake3Sign(p, key, msg)) == Ok(true)
  {
  }

  /** A BLAKE3 signature of the wrong length is rejected with `false`, not an error. */
  lemma Blake3WrongLength(p: Primitives, key: Blake3, msg: Bytes, sig: Bytes)
    requires |sig| != 32
    ensures Blake3Verify(p, key, msg, sig) == Ok(false)
  {
  }

  /** An Ed25519 signature verifies under the public key of the signing key. */
  lemma Ed25519SignVerify(p: Primitives, sk: Key, msg: Bytes)
    requires Sound(p)
    ensures var pk := p.publicKey(sk);
            && Ed25519VerifierTryNew(p, pk).Ok?
            && Ed25519Verify(p, Ed25519VerifierTryNew(p, pk).value, msg,
                             Ed25519Sign(p, Ed25519Signer(sk), msg)) == Ok(true)
  {
  }

  // ---------------------------------------------------------------------------
  // The commands

  /** The base64 engine of signatures: the URL-safe alphabet without padding. */
  const SIG_ENGINE: Base64.Engine := Base64.URL_SAFE_NO_PAD

  /** `process_text_sign` on the input bytes and the key file's bytes: load the key,
      sign, and encode the signature. */
  function ProcessTextSign(p: Primitives, input: Bytes, key: Bytes, format: F.TextSignFormat): (r: Result<string>)
    ensures format == F.Blake3 ==> (r.Ok? <==> |key| >= 32)
    ensures format == F.Blake3 && |key| < 32 ==> r == Panic(SliceOutOfRange)
    ensures format == F.Blake3 && r.Ok? ==>
              var hash: Bytes := p.keyedHash(key[..32], input);
              Base64.Decode(SIG_ENGINE, r.value) == Ok(hash)
    ensures format == F.Ed25519 ==> (r.Ok? <==> |key| == 32)
    ensures format == F.Ed25519 && |key| != 32 ==> r == Err(KeyLength(|key|))
    ensures format == F.Ed25519 && r.Ok? ==>
              var sig: Bytes := p.sign(key, input);
              Base64.Decode(SIG_ENGINE, r.value) == Ok(sig)
    ensures r.Ok? ==> '=' !in r.value
  {
    var signed: Bytes :- match format
      case Blake3 =>
        var signer :- Blake3TryNew(key);
        Ok(Blake3Sign(p, signer, input))
      case Ed25519 =>
        var signer :- Ed25519SignerTryNew(key);
        Ok(Ed25519Sign(p, signer, input));
    Base64.RoundTrip(SIG_ENGINE, signed);
    Base64.PadNotInAlphabet(Base64.UrlSafe);
    Ok(Base64.Encode(SIG_ENGINE, signed))
  }

  /** `process_text_verify`: decode the signature first, then load the key and
      verify. */
  function ProcessTextVerify(p: Primitives, input: Bytes, key: Bytes, format: F.TextSignFormat, sig: string)
    : (r: Result<bool>)
    ensures Base64.Decode(SIG_ENGINE, sig).Err? ==> r == Base64.Decode(SIG_ENGINE, sig).PropagateFailure()
    ensures Base64.Decode(SIG_ENGINE, sig).Ok? && format == F.Blake3 ==>
              && (|key| < 32 ==> r == Panic(SliceOutOfRange))
              && (|key| >= 32 ==> r.Ok? && (r.value <==> ProcessTextSign(p, input, key, F.Blake3) == Ok(sig)))
    ensures Base64.Decode(SIG_ENGINE, sig).Ok? && format == F.Ed25519 ==>
              var decoded := Base64.Decode(SIG_ENGINE, sig).value;
              && (|key| != 32 ==> r == Err(KeyLength(|key|)))
              && (|key| == 32 && !p.pointValid(key) ==> r == Err(InvalidPublicKey))
              && (|key| == 32 && p.pointValid(key) && |decoded| != 64 ==> r == Err(SignatureLength(|decoded|)))
              && (r.Ok? <==> |key| == 32 && p.pointValid(key) && |decoded| == 64)
              && (r.Ok? ==> r.value == p.verify(key, input, decoded))
  {
    var encoded := sig;
    var sig :- Base64.Decode(SIG_ENGINE, sig);
    Base64.Canonical(SIG_ENGINE, encoded, sig);
    match format
    case Blake3 =>
      var verifier :- Blake3TryNew(key);
      Blake3Verify(p, verifier, input, sig)
    case Ed25519 =>
      var verifier :- Ed25519VerifierTryNew(p, key);
      Ed25519Verify(p, verifier, input, sig)
  }

  /** Signing and then verifying with the same BLAKE3 key file gives `true`. */
  lemma Blake3TextRoundTrip(p: Primitives, input: Bytes, key: Bytes)
    requires |key| >= 32
    ensures ProcessTextSign(p, input, key, F.Blake3).Ok?
    ensures ProcessTextVerify(p, input, key, F.Blake3, ProcessTextSign(p, input, key, F.Blake3).value) == Ok(true)
  {
    Base64.RoundTrip(SIG_ENGINE, Blake3Sign(p, Blake3(key[..32]), input));
  }

  /** Signing with an Ed25519 secret key file and verifying with its public key file
      gives `true`. */
  lemma Ed25519TextRoundTrip(p: Primitives, input: Bytes, sk: Key)
    requires Sound(p)
    ensures ProcessTextSign(p, input, sk, F.Ed25519).Ok?
    ensures ProcessTextVerify(p, input, p.publicKey(sk), F.Ed25519,
                              ProcessTextSign(p, input, sk, F.Ed25519).value) == Ok(true)
  {
    Base64.RoundTrip(SIG_ENGINE, Ed25519Sign(p, Ed25519Signer(sk), input));
  }

  /** A signature holding a character outside the URL-safe alphabet (`=` included) is
      an error whatever the key, even a BLAKE3 key so short that loading it would
      panic. */
  lemma MalformedSignatureFirst(p: Primitives, input: Bytes, key: Bytes, format: F.TextSignFormat,
                                sig: string, i: nat)
    requires i < |sig| && !Base64.InAlphabet(Base64.UrlSafe, sig[i])
    ensures ProcessTextVerify(p, input, key, format, sig).Err?
  {
    Base64.ForeignSymbolRejected(SIG_ENGINE, sig, i);
  }

  /** An Ed25519 signature offered to the BLAKE3 verifier is `false`, while a BLAKE3
      signature offered to the Ed25519 verifier is an error (it is not 64 bytes). */
  lemma CrossFormatSignatures(p: Primitives, input: Bytes, key: Bytes, sk: Key)
    requires Sound(p) && |key| >= 32
    ensures var blake := ProcessTextSign(p, input, key, F.Blake3).value;
            ProcessTextVerify(p, input, p.publicKey(sk), F.Ed25519, blake) == Err(SignatureLength(32))
    ensures var ed := ProcessTextSign(p, input, sk, F.Ed25519).value;
            ProcessTextVerify(p, input, key, F.Blake3, ed) == Ok(false)
  {
    Base64.RoundTrip(SIG_ENGINE, Blake3Sign(p, Blake3(key[..32]), input));
    Base64.RoundTrip(SIG_ENGINE, Ed25519Sign(p, Ed25519Signer(sk), input));
  }

  // ---------------------------------------------------------------------------
  // Key generation

  /** `process_genpass(..)?` followed by `vec![key.as_bytes().to_vec()]`. */
  function PasswordBlob(key: Result<string>): (r: Result<seq<Bytes>>)
    requires key.Ok? ==> IsAscii(key.value)
    ensures r.Ok? <==> key.Ok?
    ensures r.Ok? ==> |r.value| == 1 && r.value[0] == AsciiBytes(key.value)
    ensures !r.Ok? ==> r == key.PropagateFailure()
  {
    match key
    case Ok(pw) => Ok([AsciiBytes(pw)])
    case _ => key.PropagateFailure()
  }

  /** `KeyGenerator for Blake3` as written: it asks for a 32-character password with
      every character class excluded, so the pool is empty and the generator panics. */
  method Blake3GenerateAsWritten() returns (r: Result<seq<Bytes>>)
    ensures r == Panic(EmptyChoice)
  {
    var key := GenPass.ProcessGenPass(32, true, true, true, true);
    assert GenPass.ClassCount(GenPass.Exclusions(true, true, true, true)) == 0;
    r := PasswordBlob(key);
  }

  /** `KeyGenerator for Blake3` with every class enabled: one blob of 32 password
      characters, which `Blake3::try_new` accepts. */
  method Blake3Generate() returns (r: Result<seq<Bytes>>)
    ensures r.Ok? && |r.value| == 1 && |r.value[0]| == 32
    ensures Blake3TryNew(r.value[0]).Ok?
  {
    var key := GenPass.ProcessGenPass(32, false, false, false, false);
    assert GenPass.ClassCount(GenPass.Exclusions(false, false, false, false)) == 4;
    r := PasswordBlob(key);
  }

  /** `KeyGenerator for Ed25519Signer`: a random secret key and its public key, in
      that order; both load. */
  method Ed25519Generate(p: Primitives) returns (r: Result<seq<Bytes>>)
    ensures r.Ok? && |r.value| == 2 && |r.value[0]| == 32
    ensures r.value[1] == p.publicKey(r.value[0])
    ensures Ed25519SignerTryNew(r.value[0]).Ok?
    ensures Sound(p) ==> Ed25519VerifierTryNew(p, r.value[1]).Ok?
  {
    var sk: Key :| true;
    var pk := p.publicKey(sk);
    r := Ok([sk, pk]);
  }

  /** `process_generate_key` as written: BLAKE3 panics in its generator, Ed25519 gives
      a secret key and its public key. */
  method ProcessGenerateKey(p: Primitives, format: F.TextSignFormat) returns (r: Result<seq<Bytes>>)
    ensures format == F.Blake3 ==> r == Panic(EmptyChoice)
    ensures format == F.Ed25519 ==> && r.Ok? && |r.value| == 2
                                    && Ed25519SignerTryNew(r.value[0]).Ok?
                                    && r.value[1] == p.publicKey(r.value[0])
                                    && (Sound(p) ==> Ed25519VerifierTryNew(p, r.value[1]).Ok?)
  {
    match format
    case Blake3 => r := Blake3GenerateAsWritten();
    case Ed25519 => r := Ed25519Generate(p);
  }

  /** `process_generate_key` over the corrected BLAKE3 generator: one blob for BLAKE3
      and two for Ed25519, each accepted by its loader. */
  method ProcessGenerateKeyCorrected(p: Primitives, format: F.TextSignFormat) returns (r: Result<seq<Bytes>>)
    ensures r.Ok?
    ensures format == F.Blake3 ==> |r.value| == 1 && Blake3TryNew(r.value[0]).Ok?
    ensures format == F.Ed25519 ==> && |r.value| == 2
                                    && Ed25519SignerTryNew(r.value[0]).Ok?
                                    && r.value[1] == p.publicKey(r.value[0])
                                    && (Sound(p) ==> Ed25519VerifierTryNew(p, r.value[1]).Ok?)
  {
    match format
    case Blake3 => r := Blake3Generate();
    case Ed25519 => r := Ed25519Generate(p);
  }
}
